=== FILE: README.md ===
# tws-auto-trader decision rules in Dafny

This project models the pure decision rules of the tws-auto-trader helpers
for Interactive Brokers TWS and proves properties about them. The rules
covered are:

- which quote field is "the price" (`resolve_price`, `safe_price`,
  `_underlying_price`, the staged fill of `_fetch_mark_prices`, the P&L mark
  and the entry mark);
- the order records the helpers build (`market`, `limit_`, `stop_pct`,
  `bracket_buy_with_stop`, `sell_option`, the UVIX share entry with its
  protective stop, the UVIX put entry) and the price arithmetic behind them
  (`decide_lmt_stop_take`, `_calc_limit_from_mark`, `_round_to_increment`);
- option selection: the expiry (nearest Friday or earliest future date), the
  strike nearest a target, the "ceil" strike of the put entry, and the
  preferred option chain;
- position sizing by floor division (`max(1, budget // price)`, the contract
  cap, the 100-share covered-call rule);
- the calendar: the third Wednesday of a month, the next three trading days,
  the roll to the next month, and the list of weekly Friday run times;
- the broker-request skeletons of `wait_price` (snapshot, then a streaming
  subscription polled until a price appears, cancelled on every way out) and
  `IBClient.connect` (client ids tried in turn, with a disconnect after each
  failure).

Every broker answer is a parameter of the operation that consumes it, as
data or as an oracle. That covers:

- tickers, contract details, option chains and qualified contracts;
- the order ids the broker assigns;
- whether a connection came up;
- the successive states of a polled ticker.

Today's date and the current moment are parameters too. Python's float
`round(x, 2)` is a function parameter `round2`, so every property about
rounded prices holds whatever that rounding does. Quote fields are `Num`,
which keeps `None`, NaN, the infinities and finite values apart. Dates are
day numbers counted from 0001-01-01, on which Monday is 0. Moments are
microseconds of New York wall-clock time.

Modules: `Results` (Option, Result, the failure reasons), `Quotes` (Num,
Ticker, `_is_finite`, `_is_pos`, truthiness), `Selection` (`next`, `min`/`max`
with a key, filters, `sorted`), `Text` (case mapping, digits, dashes, string
order), `Calendar` (Gregorian dates, weekdays, ISO text), `Sizing` (floor
division), then one module per source file: `IbClient`, `Price`, `Orders`,
`Options`, `UvixPPlus`, `Schedule`, `Dashboard`.

## Model

| member | source | states |
|---|---|---|
| IbClient.ResolvePrice | src/ib_client.py:43-51 | The result is positive. It is the first of last, close, marketPrice that is finite and positive; failing that, the mid of bid and ask when both are finite and positive. |
| IbClient.ResolvePriceNone | src/ib_client.py:43-51 | No price comes out exactly when none of the three direct fields is usable and bid and ask are not both usable. |
| IbClient.ResolvedMidBetween | src/ib_client.py:48-50 | A mid price lies between the bid and the ask. |
| IbClient.ResolvePriceSentinels | src/ib_client.py:43-51 | The library's no-data values (last -1, NaN close, marketPrice 0) and a one-sided book give no price. |
| IbClient.FirstPolledPrice | src/ib_client.py:84-90 | Among the polled ticker states, the first that resolves to a price and how many polls it took. It is None exactly when no state resolves, and then every poll was made. |
| IbClient.WaitPrice | src/ib_client.py:53-94 | A price from the snapshot ends the call after one subscribe and cancel. Otherwise a streaming subscription is polled until the first price or until the polls run out. The result is positive. The streaming subscription is made exactly when the snapshot had no price. Every subscription is cancelled before the next one and at the end. |
| IbClient.StreamingTraceClosed | src/ib_client.py:79-94 | The streaming trace of any number of polls leaves no subscription open. |
| IbClient.Connect | src/ib_client.py:105-147 | Success iff some id in `[base, base+maxTryIds)` is accepted. The stored id is the first accepted one, reached after an attempt and a disconnect for each refused id. Failure is ConnectFailed, after exactly `maxTryIds` attempt/disconnect pairs. |
| Price.SafePrice | src/price.py:12-20 | Nothing for a missing ticker. The market price when it is truthy and not NaN. Otherwise the first present of midpoint, last, close. Absent exactly when all of those are missing. |
| Price.SafePriceFromTicker | src/price.py:12-20 | The shown price is always one of the ticker's own values. |
| Price.SafePriceDiffersFromResolve | src/price.py:16-20 | Unlike `resolve_price`, a negative market price and a NaN midpoint are shown. |
| Price.SafePriceAgreesOnMarketPrice | src/price.py:16-18 | When only the market price is usable, the two rules agree. |
| Orders.Market | src/ib/orders.py:33-57 | A MKT order of the given action and size with no prices. Transmit is off exactly in a dry run. The OCA group is set only when given and non-empty. A dry run places nothing; live, the order with the broker's id is placed once on the stock. |
| Orders.Limit | src/ib/orders.py:60-81 | Same as Market for an LMT order carrying the limit price. |
| Orders.StopPct | src/ib/orders.py:84-118 | An STP order, SELL unless a non-empty side is given (a missing or empty side gives SELL), with the stop price the rounded level `pct` away from the reference (below for SELL, above otherwise). Dry run, transmit and OCA behave as in Market. |
| Orders.StopDirection | src/ib/orders.py:99-103 | For a positive reference and percentage, a SELL stop is strictly below the reference and positive below 100%; any other side is strictly above. |
| Orders.BracketBuyWithStop | src/ib/orders.py:121-160 | LMT without a limit price is an error (the assert). Otherwise a BUY parent of the entry type and a SELL STP child of the same size, tif and session flag. Neither order is grouped or held back. A dry run places nothing. Live, the parent is placed first and the child carries the parent's broker id. |
| Orders.DecideLmtStopTake | src/ib/orders.py:164-180 | Limit, stop and optional take-profit are the rounded levels above or below one reference. The take-profit is present iff its percentage is. |
| Orders.LimitNotBelowReference | src/ib/orders.py:177 | For a positive reference, the unrounded limit is at or above it iff the slippage is non-negative. |
| Orders.StopBelowReference | src/ib/orders.py:178 | For a stop percentage strictly between 0 and 1, the unrounded stop is positive and strictly below the reference. |
| Orders.DecideScenario | src/ib/orders.py:164-180 | Reference 100, 15 bps, 6% stop: limit 100.15, stop 94.00, no take-profit. |
| Options.UnderlyingPrice | src/ib/options.py:31-66 | The result is positive. It is the first of last, mid, close, marketPrice that is finite and positive, and no earlier candidate is usable. RuntimeError exactly when none is. |
| Options.UnderlyingPricePrecedence | src/ib/options.py:51-64 | The candidates are taken in the order last, mid, close, marketPrice. |
| Options.MidAcceptsNegativeBid | src/ib/options.py:53-54 | The mid needs both sides present, not positive: a -1 bid against a 5 ask gives 2. |
| Options.NearestExpiryFriday | src/ib/options.py:69-81 | Error when an expiry is not an ISO date, or when none lies on or after today. Otherwise a listed date, not in the past, that is the earliest such Friday if there is one, and otherwise the earliest such date. |
| Options.EarliestFuture | src/ib/options.py:129-133 | Without the Friday preference: the earliest listed date on or after today, with the same errors. |
| Options.EarliestFutureIsSortedFirst | src/ib/options.py:122-133 | The earliest future expiry comes first in string order among the future expiries, so it is `future[0]` of the sorted list. |
| Options.NearestFridayIsSortedFirst | src/ib/options.py:75-81 | The chosen expiry comes first in string order among the future Fridays, or among all future expiries when no Friday is listed. This is the first Friday of the sorted list, or `future[0]`. |
| Options.ClosestStrike | src/ib/options.py:84-85 | Error on an empty ladder. Otherwise a listed strike no farther from the target than any other, and strictly nearer than every earlier one (`min` keeps the first). |
| Options.ClosestStrikeTieGoesLower | src/ib/options.py:123 | On an ascending ladder, every strike as close to the target as the chosen one is at or above it: a tie goes to the lower strike. |
| Options.ClosestStrikeScenario | src/ib/options.py:84-85 | 95, 97.5, 100, 102.5, 105 with target 101.2 gives 100. |
| Options.TargetDirection | src/ib/options.py:136 | The call target is above the price and the put target below it, for a positive offset. |
| Options.ChooseExpiry | src/ib/options.py:122-133 | The chosen expiry is listed, not in the past, and earliest (Friday first when preferred). Error exactly when an expiry does not parse or all are past. |
| Options.ChooseStrike | src/ib/options.py:123-137 | A present strike nearest the target, and the lower of two equally near ones. Error exactly when no strike is present. |
| Options.ClosestOnLadder | src/ib/options.py:84-85 | The closest strike of an ascending ladder holding exactly the listed strikes is listed, nearest, and the lower one on a tie. |
| Options.PickOptionContract | src/ib/options.py:88-142 | Errors for no price or no contract details. On success, the first chain's expiry and strike follow the rules above, including the lower strike on a tie. The contract is the intended one: the expiry in `YYYYMMDD` form, the underlying's symbol, the option exchange, the underlying's currency as the currency, and no multiplier. Line 141 as written puts the currency in the multiplier instead; see Findings. |
| Options.PickOptionContractAsWritten | src/ib/options.py:141 | The `Option(...)` call as written: the same errors, expiry and strike as the intended pick, but the library's sixth positional parameter is `multiplier`, so the contract's multiplier is the underlying's currency and its currency is empty. |
| Options.PositionalCurrencyMisplaced | src/ib/options.py:141 | For any underlying with a currency, every contract picked as written has an empty currency and differs from the intended contract. |
| Options.PositionalOptionScenario | src/ib/options.py:141 | A NUGT/USD underlying gets multiplier "USD" and currency "" as written, and currency "USD" as intended. |
| Options.OverrideSkipsLookup | src/ib/options.py:107 | With an override price the snapshot ticker does not matter. |
| Options.SellOption | src/ib/options.py:145-170 | A MKT SELL of the given size. A dry run always succeeds and places nothing. Live succeeds iff exactly one contract qualifies and places the order on it. Transmit and OCA behave as in Market. |
| Calendar.IsoRoundTrip | src/ib/options.py:75 | `fromisoformat` reads back the ISO text of every valid date. |
| Calendar.IsoCanonical | src/ib/options.py:75 | An accepted expiry string is the ISO text of its date. |
| Calendar.DayNumberOrder | src/ib/options.py:75 | Day numbers order valid dates as `date` comparison does: by year, then month, then day. |
| Calendar.IsoOrder | src/ib/options.py:75 | For two accepted ISO strings, string order is the order of their dates' day numbers. |
| Text.LexLeDigits | src/ib/options.py:122 | On zero-padded digit strings of one width, string order is numeric order. |
| Calendar.StripDashesOfIso | src/ib/options.py:140 | Removing the dashes from an accepted expiry gives the broker's `YYYYMMDD` form. |
| Sizing.FloorDivBounds | src/ib/uvix_p_plus.py:368 | `a // b` is the largest whole count of `b` not exceeding `a`. |
| Sizing.FloorDivAtLeast | streamlit_app.py:77-78 | At least `n` units fit iff `n` units cost no more than the budget. |
| Sizing.AtLeastOne | src/ib/uvix_p_plus.py:368 | `max(1, budget // price)` is at least 1 and is the floor quotient whenever that is at least 1. |
| Sizing.AtLeastOneFitsBudget | src/ib/uvix_p_plus.py:368 | When the budget covers one unit, the count is the most units the budget pays for. |
| UvixPPlus.SnapshotStage | src/ib/uvix_p_plus.py:89-108 | The snapshot never changes a field that is already finite. |
| UvixPPlus.HistoryStage | src/ib/uvix_p_plus.py:110-127 | The bars never change a field that is already finite. |
| UvixPPlus.FetchMarkPrices | src/ib/uvix_p_plus.py:71-129 | Later sources keep every finite earlier field. The snapshot and the bars matter only when the earlier stages leave the quote incomplete. With nothing finite and bars present, the last bar's close becomes close and last. With nothing finite and no bars, the snapshot stage's fields are returned unchanged. |
| UvixPPlus.QuotedStreamSuffices | src/ib/uvix_p_plus.py:90 | A stream with a last and a bid or ask makes the snapshot and bars irrelevant. |
| UvixPPlus.SnapshotFillsGapsOnly | src/ib/uvix_p_plus.py:99-106 | Every non-finite stream field is replaced by the snapshot's field. |
| UvixPPlus.FirstFinite | src/ib/uvix_p_plus.py:240-241 | The first finite candidate; None exactly when none is finite. |
| UvixPPlus.MarkForPnl | src/ib/uvix_p_plus.py:240-241 | The P&L mark is the first finite of last, close, bid, ask. None iff no field is finite. |
| UvixPPlus.MarkForEntry | src/ib/uvix_p_plus.py:290-300 | The entry mark is the first finite of ask, last, close, bid. Error iff no field is finite. |
| UvixPPlus.EntryAndPnlMarksAgree | src/ib/uvix_p_plus.py:240-241 | An entry mark exists iff a P&L mark does, and they are equal when only one field is finite. |
| UvixPPlus.CalcUnrealized | src/ib/uvix_p_plus.py:131-135 | None iff flat, no average cost or no mark. Otherwise `(mark - avg) * qty`. |
| UvixPPlus.UnrealizedSign | src/ib/uvix_p_plus.py:134-135 | The P&L is positive iff the position's sign agrees with the mark's side of the average cost. |
| UvixPPlus.PositionPnl | src/ib/uvix_p_plus.py:240-242 | The position's P&L exists iff it is not flat and some field is finite. |
| UvixPPlus.RoundToIncrement | src/ib/uvix_p_plus.py:57-59 | Error iff the increment is zero. Otherwise the rounded multiple of the increment within half an increment of `x`. |
| UvixPPlus.RoundHalfEven | src/ib/uvix_p_plus.py:59 | Python's `round` to an integer is within 0.5 and even on ties. |
| UvixPPlus.NearestMultiple | src/ib/uvix_p_plus.py:59 | A step count within 0.5 of `x / inc` gives a multiple within half an increment of `x`. |
| UvixPPlus.BpsLevelDirection | src/ib/uvix_p_plus.py:302-306 | For a positive mark and non-negative bps, a BUY limit is not below the mark and any other side's is not above it. The BUY level equals `decide_lmt_stop_take`'s limit. |
| UvixPPlus.BuySpellings | src/ib/uvix_p_plus.py:304 | `side.upper() == "BUY"` holds exactly for the spellings of BUY in any case. |
| UvixPPlus.EntryLimit | src/ib/uvix_p_plus.py:351-357 | The explicit limit price wins. Then the mark raised by `limit_from_mark_pct`. Then the mark plus the slippage. |
| UvixPPlus.EntryQty | src/ib/uvix_p_plus.py:364-368 | A given quantity is kept. Without one, a non-positive budget is an error, a zero reference raises, and otherwise the size is `max(1, budget // ref)`. |
| UvixPPlus.EntryStop | src/ib/uvix_p_plus.py:377-382 | A stop exists iff `stop_loss_pct` is positive, at the rounded mark lowered by it. |
| UvixPPlus.EntryOrders | src/ib/uvix_p_plus.py:370-394 | One child exactly when there is a stop. The parent transmits iff there is no child. |
| UvixPPlus.PlaceGroup | src/ib/uvix_p_plus.py:409-422 | The parent is placed first. Each child follows with the parent's broker id, and only the last child transmits. |
| UvixPPlus.BuildEntry | src/ib/uvix_p_plus.py:370-422 | A BUY parent (LMT with the limit, or MKT) and, with a stop, a GTC SELL STP child in the OCA group. Only the group's last order transmits. A dry run places nothing. Live placement sends the parent under its broker id, then the stop child itself, linked to that id and transmitting as the last order of the group. |
| UvixPPlus.PlaceUvixPPlusOrder | src/ib/uvix_p_plus.py:308-435 | The errors, in order, are: no mark, an order type other than LMT/MKT, a missing quantity with a non-positive budget, and DivisionByZero when the budget is divided by a zero reference price (the LMT limit or the MKT mark). With a mark and a valid order type, the entry succeeds exactly when a quantity is given or the budget is positive and the reference price is not zero. A successful entry uses the entry mark, the limit precedence, the budget sizing at the limit (LMT) or mark (MKT), the stop rule and the order-group promises, including the exact stop child that live placement sends. |
| UvixPPlus.EntrySizedToBudget | src/ib/uvix_p_plus.py:364-368 | Sized from a budget that covers the reference price, the entry buys the most shares the budget pays for. |
| UvixPPlus.PreferredChain | src/ib/uvix_p_plus.py:495-497 | A chain with the most expiries among the SMART or exchange-less ones, or among all when there is none. |
| UvixPPlus.SmallestAtLeast | src/ib/uvix_p_plus.py:508-509 | The least strike at or above a bound; None iff every strike is below it. |
| UvixPPlus.Nearest | src/ib/uvix_p_plus.py:509 | A listed strike nearest a value. |
| UvixPPlus.PutStrike | src/ib/uvix_p_plus.py:505-517 | A listed explicit strike is kept. An unlisted one moves up to the next listed strike, or to the nearest when none is above. Without one, "ceil" takes the least strike reaching the target within 1e-9 (the top strike when none does), and any other mode takes the nearest. |
| UvixPPlus.CeilPicksFirstReaching | src/ib/uvix_p_plus.py:511-515 | Without an explicit strike, "ceil" picks the listed strike that reaches the target within 1e-9 when every lower strike falls short. |
| UvixPPlus.NearestPicksClosest | src/ib/uvix_p_plus.py:516-517 | Without an explicit strike, any other mode picks a strike strictly nearer the target than every other listed one. |
| UvixPPlus.CeilNotBelowTarget | src/ib/uvix_p_plus.py:513-515 | When some strike reaches the target, "ceil" never picks one below it by more than the tolerance. |
| UvixPPlus.PutStrikeScenario | src/ib/uvix_p_plus.py:513-517 | 10, 12, 14 with target 12.3: "ceil" gives 14 and "nearest" gives 12. |
| UvixPPlus.PutExpiry | src/ib/uvix_p_plus.py:519-524 | A non-empty explicit expiry must be listed and is kept. Otherwise the least expiry in string order. |
| UvixPPlus.PosOrNone | src/ib/uvix_p_plus.py:544-549 | A quote field is kept iff it is finite and positive. |
| UvixPPlus.OptionQuoteFrom | src/ib/uvix_p_plus.py:541-562 | Every kept field is usable. The plain snapshot is kept when it has a usable field or the regulatory snapshot is off. Otherwise the regulatory snapshot's usable bid, ask and last are used. |
| UvixPPlus.OptionLimit | src/ib/uvix_p_plus.py:564-583 | The precedence is: the ask when usable; else the rounded mid less the improvement, raised to a usable bid above it; else the bid; else the last. The limit is never below a usable bid. Error iff no field is usable. |
| UvixPPlus.PutContracts | src/ib/uvix_p_plus.py:590-592 | The contract count never exceeds the cap and is at least 1 when the cap is. |
| UvixPPlus.PutContractsFitBudget | src/ib/uvix_p_plus.py:590 | Below the cap, the count is the most contracts the budget pays for. |
| UvixPPlus.PutLimits | src/ib/uvix_p_plus.py:449-450 | An explicit `min_premium` or `max_contracts` wins; the environment only supplies the default. |
| UvixPPlus.PutLimitsDiffer | src/ib/uvix_p_plus.py:470-475 | The code as written agrees with the intended rule iff every argument passed equals the environment value. |
| UvixPPlus.PutChoice | src/ib/uvix_p_plus.py:495-524 | Error exactly when the preferred chain has no expiry or no strike (EmptyChain), or when a non-empty explicit expiry is not listed (ExpiryNotListed). On success, a listed expiry and present strike of the preferred chain, chosen by the strike and expiry rules. |
| UvixPPlus.PutOrder | src/ib/uvix_p_plus.py:585-612 | Success iff the limit is positive and at least the minimum premium. The order is a transmitting LMT BUY of the capped size on the SMART put, placed only when live. |
| UvixPPlus.PlaceUvixPutPlusOrder | src/ib/uvix_p_plus.py:438-625 | The errors, in order: no underlying mark, no chains, the chain-choice error, a chosen put that does not qualify (QualificationFailed), then the pricing errors. Success exactly when there is a mark and a chain, the choice succeeds, the put qualifies, and the limit is positive and reaches the minimum premium. A successful put uses the entry mark, the chain choice, a qualified contract, the limit from the quote and the put-order promises. |
| Schedule.ThirdWednesday | src/schedule.py:42-47 | Error iff the year or month is out of range. Otherwise a valid Wednesday in that month, between the 15th and the 21st. |
| Schedule.ThirdWednesdayIsThird | src/schedule.py:42-47 | The month holds exactly two Wednesdays before it, one and two weeks earlier. |
| Schedule.ThirdWednesdayScenario | src/schedule.py:42-47 | October 2024 gives the 16th; month 13 is an error. |
| Schedule.NextWeekday | src/schedule.py:49-57 | The first Monday-to-Friday day after a day, at most three days on. |
| Schedule.NextThreeTradingDays | src/schedule.py:49-57 | Three increasing weekdays after the day, skipping no weekday. They equal the next weekday applied once, twice and three times. |
| Schedule.FirstThreeWeekdays | src/schedule.py:49-57 | Three increasing weekdays after a day that skip no weekday are the first three. |
| Schedule.TradingDaysFromWednesday | src/schedule.py:49-57 | After a Wednesday the trading days are Thursday, Friday and the next Monday. |
| Schedule.NextMonth | src/schedule.py:62 | The month after: January of the next year after December. |
| Schedule.NextMonthFollows | src/schedule.py:62 | The next month starts the day after this month's last day. |
| Schedule.MonthRuns | src/schedule.py:63-66 | Error iff the month is invalid. Otherwise 09:35 on the three trading days after the third Wednesday, all weekdays. |
| Schedule.MonthlyVixRuns | src/schedule.py:59-70 | The current month's runs followed by the next month's. Error iff either month is out of range. |
| Dashboard.At | streamlit_app.py:109-110 | The moment lies on the given day at the given clock time. |
| Dashboard.DaysToFriday | streamlit_app.py:108 | `(4 - weekday) % 7` is in 0..6 and lands on a Friday. |
| Dashboard.NextWeeklyTimes | streamlit_app.py:103-114 | Error iff the clock time is invalid. Otherwise `max(weeks, 0)` Friday run times, none before now, each a week after the previous one. |
| Dashboard.FirstRun | streamlit_app.py:108-112 | The first run is a Friday run time not before now. |
| Dashboard.NextWeeklyTimesEarliest | streamlit_app.py:108-112 | No Friday run time at or after now comes before the first listed run. |
| Dashboard.NextWeeklyTimesScenario | streamlit_app.py:103-114 | On Friday 2024-01-05, asked at 10:00 the 09:35 runs start the next Friday; asked at 09:00 they start that morning. Hour 24 is an error. |
| Dashboard.CoveredCallSizing | streamlit_app.py:72-97 | Error iff the underlying has no price. Otherwise `max(1, budget // px)` shares and the whole contracts they cover. The call is sold iff that is at least one contract. |
| Dashboard.CallLegIffBudget | streamlit_app.py:77-97 | The call is sold iff the budget buys at least 100 shares at the quoted price. |
| Dashboard.CoveredCallScenario | streamlit_app.py:77-97 | 5000 at 120 buys 41 shares and skips the call. |

## Left out

- Network I/O, sleeps, timeouts and logging. The broker's answers are parameters, and the number of polls that fit into `wait_price`'s timeout is the length of the poll sequence.
- `wait_price` also returns the ticker object; only the price and the request trace are modelled.
- `connect` sets the market-data type after a successful connection; that request is not in the trace.
- `wait_price` first asks for delayed data (`reqMarketDataType(3)`) and qualifies a contract that has no conId. Both requests swallow their exceptions and do not affect the price, so the trace leaves them out.
- Contract qualification: the conId-first lookup with its BATS avoidance and the ARCA/NYSE/NASDAQ fallbacks enters as the qualified contract. `sell_option`'s `[qopt] = ...` unpacking is modelled as "exactly one qualifies".
- Environment and configuration: `.env` defaults and the missing-conid error. The defaults enter as the request's fields.
- `new_oca_group` and the OCA tag of the share entry draw on a random uuid. The tag is a parameter.
- Floating point: `round(x, 2)` is the abstract parameter `round2`. Arithmetic is exact real arithmetic, `//` is the floor of the exact quotient, and overflow to infinity is not modelled.
- NaN strikes in an option chain are not modelled: strikes are reals or missing.
- `fromisoformat` accepts only `YYYY-MM-DD` here. Python 3.11 also accepts the basic form `YYYYMMDD`; such an expiry is MalformedDate in the model.
- Case mapping is ASCII only; `str.upper`/`str.lower` on other characters are not modelled.
- Time zones: the NY wall clock is exact here, and the conversion to the local zone for display is not modelled.
- `get_uvix_p_plus_state`: the position lookup and the open-orders summary read broker state. Only its P&L mark (`PositionPnl`) is modelled.
- `_round_to_increment` is defined but never called; it is modelled on its own (`RoundToIncrement`).
- Schedule.MonthlyVixRuns returns an error when the next month is past year 9999. The source registers the current month's jobs before it raises.
- Job registration with the scheduler and the dashboard's user interface are not modelled.
- `run_nugt_cc_dry`'s orders are not modelled as one operation. Its sizing is `Dashboard.CoveredCallSizing`, and the orders it builds are `Orders.Market`, `Orders.StopPct`, `Options.PickOptionContract` (`Options.PickOptionContractAsWritten` for the contract the code builds) and `Options.SellOption`.
- Options.PickOptionContract does not state the errors past the contract-details step (no chain parameters, no expiry, no strike) as an if-and-only-if; they are the errors of `ChooseExpiry` and `ChooseStrike`.

## Findings

| source | as written | input that shows it | evidently intended | confidence | as-written member | corrected member |
|---|---|---|---|---|---|---|
| src/ib/uvix_p_plus.py:470-475 | The environment values overwrite the `min_premium` and `max_contracts` arguments, so the `is None` defaults after them never apply. | `min_premium=1.0` with `MIN_OPTION_PREMIUM` at 0.05 settles 0.05 | A caller's argument wins and the environment supplies the default, as the signature's comments say | high (not executed) | UvixPPlus.PutLimitsAsWritten, UvixPPlus.PutLimitsDiffer | UvixPPlus.PutLimits |
| src/ib/options.py:141 | `Option(und.symbol, expiry, strike, right, opt_exchange, und.currency)` passes the currency sixth, which is the library's `multiplier` parameter. | An underlying `NUGT` on `SMART` in `USD` gives a contract with multiplier "USD" and currency "" | The currency passed by keyword, as the put helper of src/ib/uvix_p_plus.py:527-535 does | high (not executed) | Options.PickOptionContractAsWritten, Options.PositionalCurrencyMisplaced | Options.PickOptionContract |

## Notes on the code

- `bracket_buy_with_stop` sets neither an OCA group nor `transmit`. Both orders keep the library default (transmit on), so the parent may fill before the child arrives.
- The mid candidate of `_underlying_price` needs only bid and ask present, so a negative missing-data bid yields a mid (`Options.MidAcceptsNegativeBid`).
- `safe_price` filters only missing values and a NaN market price. Negative, infinite and NaN field values can be shown (`Price.SafePriceDiffersFromResolve`).
- The option limit's `max(limit, bid)` keeps the computed limit on a tie.
- The docstring of `place_uvix_put_plus_order` (src/ib/uvix_p_plus.py:460) gives the buy limit as min(ASK, max(BID, MID - improve)). The code (570-572) takes the ask whenever it is positive. With bid 1.00, ask 1.10 and an improvement of 0.01, the docstring gives 1.04 and the code gives 1.10. The model follows the code (`UvixPPlus.OptionLimit`).
- `_mark_price_for_entry` accepts any finite mark, including zero or a negative one. A zero mark then reaches the budget division (DivisionByZero).

=== FILE: calendar.dfy ===
/** Proleptic Gregorian calendar dates as Python's `datetime.date` handles
    them: validity, day numbers, weekdays, and the ISO 8601 text form
    `YYYY-MM-DD` together with the broker's compact `YYYYMMDD` form.

    Day number `n` counts days since 0001-01-01, i.e. `date.toordinal() - 1`;
    that day was a Monday, so `date.weekday()` is `n % 7` (Monday 0, Friday 4).
 */
module Calendar {
  import opened Results
  import opened Text

  datatype Date = Date(year: int, month: int, day: int)

  const MinYear := 1
  const MaxYear := 9999

  const Monday := 0
  const Wednesday := 2
  const Friday := 4
  const Saturday := 5

  predicate IsLeap(y: int) {
    y % 4 == 0 && (y % 100 != 0 || y % 400 == 0)
  }

  function DaysInMonth(y: int, m: int): (n: int)
    requires 1 <= m <= 12
    ensures 28 <= n <= 31
  {
    if m == 2 then (if IsLeap(y) then 29 else 28)
    else if m == 4 || m == 6 || m == 9 || m == 11 then 30
    else 31
  }

  /** The dates `datetime.date` accepts. */
  predicate Valid(d: Date) {
    MinYear <= d.year <= MaxYear && 1 <= d.month <= 12 && 1 <= d.day <= DaysInMonth(d.year, d.month)
  }

  /** Days in the years before `y` (CPython's `_days_before_year`). */
  function DaysBeforeYear(y: int): int
    requires y >= 1
  {
    var y1 := y - 1;
    y1 * 365 + y1 / 4 - y1 / 100 + y1 / 400
  }

  /** Days in the months of year `y` before month `m` (CPython's `_days_before_month`). */
  function DaysBeforeMonth(y: int, m: int): int
    requires 1 <= m <= 12
  {
    [0, 31, 59, 90, 120, 151, 181, 212, 243, 273, 304, 334][m - 1] + (if m > 2 && IsLeap(y) then 1 else 0)
  }

  /** `d.toordinal() - 1`. */
  function DayNumber(d: Date): int
    requires Valid(d)
  {
    DaysBeforeYear(d.year) + DaysBeforeMonth(d.year, d.month) + d.day - 1
  }

  /** `weekday()` of the day with number `n`: Monday 0 ... Sunday 6. */
  function Weekday(n: int): (w: int)
    ensures 0 <= w < 7
  {
    n % 7
  }

  /** Consecutive days have consecutive weekdays, wrapping Sunday to Monday. */
  lemma WeekdayNext(n: int)
    ensures Weekday(n + 1) == (Weekday(n) + 1) % 7
  {
  }

  /** Moving a whole number of weeks keeps the weekday. */
  lemma WeekdayShift(n: int, weeks: int)
    ensures Weekday(n + 7 * weeks) == Weekday(n)
  {
  }

  /** Dates within one month have consecutive day numbers. */
  lemma DayNumberInMonth(y: int, m: int, dom: int)
    requires Valid(Date(y, m, 1)) && Valid(Date(y, m, dom))
    ensures DayNumber(Date(y, m, dom)) == DayNumber(Date(y, m, 1)) + dom - 1
  {
  }

  /** Two days share a weekday exactly when they lie a whole number of weeks apart. */
  lemma SameWeekday(a: int, b: int)
    ensures Weekday(a) == Weekday(b) <==> (b - a) % 7 == 0
  {
    var qa, ra := a / 7, a % 7;
    var qb, rb := b / 7, b % 7;
    if rb >= ra {
      DivModUnique(b - a, 7, qb - qa, rb - ra);
    } else {
      DivModUnique(b - a, 7, qb - qa - 1, rb - ra + 7);
    }
  }

  /** Moving on `(target - weekday) % 7` days, as Python code does to reach
      the next given weekday, lands on that weekday within the week. */
  lemma WeekdayAdvance(n: int, target: int)
    requires 0 <= target < 7
    ensures 0 <= (target - Weekday(n)) % 7 < 7
    ensures Weekday(n + (target - Weekday(n)) % 7) == target
  {
    var q, w := n / 7, n % 7;
    if target >= w {
      DivModUnique(target - w, 7, 0, target - w);
      DivModUnique(n + (target - w), 7, q, target);
    } else {
      DivModUnique(target - w, 7, -1, target - w + 7);
      DivModUnique(n + (target - w + 7), 7, q + 1, target);
    }
  }

  /** A year has 366 days when it is a leap year and 365 otherwise. */
  lemma {:induction false} YearLength(y: int)
    requires 1 <= y
    ensures DaysBeforeYear(y + 1) == DaysBeforeYear(y) + (if IsLeap(y) then 366 else 365)
  {
    DivStep(y, 4);
    DivStep(y, 100);
    DivStep(y, 400);
    if y % 100 == 0 {
      DivModUnique(y, 4, 25 * (y / 100), 0);
    }
    if y % 400 == 0 {
      DivModUnique(y, 100, 4 * (y / 400), 0);
    }
  }

  /** The floor quotient by `k` grows by one exactly at the multiples of `k`. */
  lemma DivStep(y: int, k: int)
    requires k > 0
    ensures y / k - (y - 1) / k == (if y % k == 0 then 1 else 0)
  {
    var q, r := (y - 1) / k, (y - 1) % k;
    if r == k - 1 {
      assert y == (q + 1) * k + 0;
      DivModUnique(y, k, q + 1, 0);
    } else {
      assert y == q * k + (r + 1);
      DivModUnique(y, k, q, r + 1);
    }
  }

  /** Quotient and remainder are determined by `x == q * k + r`, `0 <= r < k`. */
  lemma DivModUnique(x: int, k: int, q: int, r: int)
    requires k > 0 && x == q * k + r && 0 <= r < k
    ensures x / k == q && x % k == r
  {
    var q2, r2 := x / k, x % k;
    assert (q2 - q) * k == r - r2;
    MulLower(q2 - q, k);
  }

  lemma MulLower(d: int, k: int)
    requires k > 0
    ensures d >= 1 ==> d * k >= k
    ensures d <= -1 ==> d * k <= -k
  {
  }

  // ---------------------------------------------------------------- date order

  /** `d1 < d2` for `datetime.date`: by year, then month, then day. */
  predicate Before(d1: Date, d2: Date) {
    || d1.year < d2.year
    || (d1.year == d2.year && (d1.month < d2.month || (d1.month == d2.month && d1.day < d2.day)))
  }

  function YearDays(y: int): int {
    if IsLeap(y) then 366 else 365
  }

  /** A month starts where the one before it ends. */
  lemma MonthStep(y: int, m: int)
    requires 1 <= m < 12
    ensures DaysBeforeMonth(y, m + 1) == DaysBeforeMonth(y, m) + DaysInMonth(y, m)
  {
  }

  /** A month ends no later than any later month starts. */
  lemma {:induction false} MonthEndsBefore(y: int, m1: int, m2: int)
    requires 1 <= m1 < m2 <= 12
    ensures DaysBeforeMonth(y, m1) + DaysInMonth(y, m1) <= DaysBeforeMonth(y, m2)
    decreases m2 - m1
  {
    MonthStep(y, m2 - 1);
    if m1 < m2 - 1 {
      MonthEndsBefore(y, m1, m2 - 1);
    }
  }

  /** Every month ends within its year. */
  lemma MonthEndsInYear(y: int, m: int)
    requires 1 <= m <= 12
    ensures 0 <= DaysBeforeMonth(y, m)
    ensures DaysBeforeMonth(y, m) + DaysInMonth(y, m) <= YearDays(y)
  {
    if m < 12 {
      MonthEndsBefore(y, m, 12);
    }
  }

  /** A year ends no later than any later year starts. */
  lemma {:induction false} YearEndsBefore(y1: int, y2: int)
    requires 1 <= y1 < y2
    ensures DaysBeforeYear(y1) + YearDays(y1) <= DaysBeforeYear(y2)
    decreases y2 - y1
  {
    YearLength(y2 - 1);
    if y1 < y2 - 1 {
      YearEndsBefore(y1, y2 - 1);
    }
  }

  /** An earlier date has a smaller day number. */
  lemma BeforeDayNumber(d1: Date, d2: Date)
    requires Valid(d1) && Valid(d2) && Before(d1, d2)
    ensures DayNumber(d1) < DayNumber(d2)
  {
    MonthEndsInYear(d1.year, d1.month);
    MonthEndsInYear(d2.year, d2.month);
    if d1.year < d2.year {
      YearEndsBefore(d1.year, d2.year);
    } else if d1.month < d2.month {
      MonthEndsBefore(d1.year, d1.month, d2.month);
    }
  }

  /** Day numbers order valid dates as `datetime.date` compares them. */
  lemma DayNumberOrder(d1: Date, d2: Date)
    requires Valid(d1) && Valid(d2)
    ensures DayNumber(d1) <= DayNumber(d2) <==> d1 == d2 || Before(d1, d2)
  {
    if d1 != d2 && !Before(d1, d2) {
      BeforeDayNumber(d2, d1);
    } else if Before(d1, d2) {
      BeforeDayNumber(d1, d2);
    }
  }

  // ---------------------------------------------------------------- text forms

  /** `d.isoformat()`: `YYYY-MM-DD`. */
  function Iso(d: Date): (s: string)
    requires Valid(d)
    ensures |s| == 10 && s[4] == '-' && s[7] == '-'
  {
    Pad(d.year, 4) + "-" + Pad(d.month, 2) + "-" + Pad(d.day, 2)
  }

  /** The broker's `YYYYMMDD` form of a date. */
  function Compact(d: Date): (s: string)
    requires Valid(d)
    ensures |s| == 8 && AllDigits(s)
  {
    Pad(d.year, 4) + Pad(d.month, 2) + Pad(d.day, 2)
  }

  /** `date.fromisoformat(s)` for the extended form `YYYY-MM-DD`; `None` where
      Python raises `ValueError`. */
  function ParseIso(s: string): (r: Option<Date>)
    ensures r.Some? ==> Valid(r.value)
  {
    if |s| == 10 && s[4] == '-' && s[7] == '-'
       && AllDigits(s[0..4]) && AllDigits(s[5..7]) && AllDigits(s[8..10]) then
      var d := Date(ParseDigits(s[0..4]), ParseDigits(s[5..7]), ParseDigits(s[8..10]));
      if Valid(d) then Some(d) else None
    else None
  }

  /** Parsing the ISO text of a date gives the date back. */
  lemma IsoRoundTrip(d: Date)
    requires Valid(d)
    ensures ParseIso(Iso(d)) == Some(d)
  {
    var s := Iso(d);
    assert s[0..4] == Pad(d.year, 4);
    assert s[5..7] == Pad(d.month, 2);
    assert s[8..10] == Pad(d.day, 2);
    assert Pow10(4) == 10000 && Pow10(2) == 100;
    ParsePad(d.year, 4);
    ParsePad(d.month, 2);
    ParsePad(d.day, 2);
  }

  /** The parser accepts only the canonical text of a date, so two accepted
      strings naming the same date are the same string. */
  lemma IsoCanonical(s: string)
    requires ParseIso(s).Some?
    ensures Iso(ParseIso(s).value) == s
  {
    var d := ParseIso(s).value;
    var y, m, dd := s[0..4], s[5..7], s[8..10];
    assert d == Date(ParseDigits(y), ParseDigits(m), ParseDigits(dd));
    PadParse(y);
    PadParse(m);
    PadParse(dd);
    assert Iso(d) == y + "-" + m + "-" + dd;
    IsoParts(s);
  }

  /** A ten-character text with dashes at 4 and 7 is its three parts joined
      by dashes. */
  lemma IsoParts(s: string)
    requires |s| == 10 && s[4] == '-' && s[7] == '-'
    ensures s == s[0..4] + "-" + s[5..7] + "-" + s[8..10]
  {
    var t := s[0..4] + "-" + s[5..7] + "-" + s[8..10];
    assert |t| == 10;
    forall i | 0 <= i < 10 ensures t[i] == s[i] {
    }
  }

  /** Two `YYYY-MM-DD`-shaped texts compare by their first differing part:
      year, then month, then day. */
  lemma IsoTextOrder(a: string, b: string)
    requires |a| == 10 && a[4] == '-' && a[7] == '-'
    requires |b| == 10 && b[4] == '-' && b[7] == '-'
    ensures LexLe(a, b) <==>
              if a[0..4] != b[0..4] then LexLe(a[0..4], b[0..4])
              else if a[5..7] != b[5..7] then LexLe(a[5..7], b[5..7])
              else LexLe(a[8..10], b[8..10])
  {
    assert a[0..] == a && b[0..] == b;
    LexLeSplit(a, b, 0, 4);
    LexLeSplit(a, b, 4, 5);
    assert a[4..5] == b[4..5];
    LexLeSplit(a, b, 5, 7);
    LexLeSplit(a, b, 7, 8);
    assert a[7..8] == b[7..8];
    LexLeSplit(a, b, 8, 10);
    assert a[10..] == [] && b[10..] == [];
    LexLeReflexive(a[8..10]);
  }

  /** On the texts `fromisoformat` accepts, Python's string order is the
      order of the dates they name, so sorting expiry strings sorts them by
      date. */
  lemma IsoOrder(a: string, b: string)
    requires ParseIso(a).Some? && ParseIso(b).Some?
    ensures LexLe(a, b) <==> DayNumber(ParseIso(a).value) <= DayNumber(ParseIso(b).value)
  {
    var da, db := ParseIso(a).value, ParseIso(b).value;
    IsoTextOrder(a, b);
    LexLeDigits(a[0..4], b[0..4]);
    LexLeDigits(a[5..7], b[5..7]);
    LexLeDigits(a[8..10], b[8..10]);
    DigitsInjective(a[0..4], b[0..4]);
    DigitsInjective(a[5..7], b[5..7]);
    DigitsInjective(a[8..10], b[8..10]);
    DayNumberOrder(da, db);
  }

  /** Removing the dashes from an accepted ISO date gives the broker's form. */
  lemma StripDashesOfIso(s: string)
    requires ParseIso(s).Some?
    ensures StripDashes(s) == Compact(ParseIso(s).value)
  {
    var d := ParseIso(s).value;
    IsoCanonical(s);
    var y, m, dd := Pad(d.year, 4), Pad(d.month, 2), Pad(d.day, 2);
    assert s == y + "-" + m + "-" + dd;
    NoDashInDigits(y);
    NoDashInDigits(m);
    NoDashInDigits(dd);
    StripDashesAppend(y + "-" + m + "-", dd);
    StripDashesAppend(y + "-" + m, "-");
    StripDashesAppend(y + "-", m);
    StripDashesAppend(y, "-");
    StripDashesNoDash(y);
    StripDashesNoDash(m);
    StripDashesNoDash(dd);
  }

  lemma NoDashInDigits(s: string)
    requires AllDigits(s)
    ensures '-' !in s
  {
  }
}

=== FILE: dashboard.dfy ===
/** The two rules of the dashboard (streamlit_app.py) that are not user
    interface: the list of upcoming Friday run times, and how the NUGT
    covered-call dry run sizes its share and option legs.

    Moments are New York wall-clock times counted in microseconds from
    0001-01-01 00:00, the resolution of Python's `datetime`.  All the
    arithmetic and the comparison in `next_weekly_times` happen on aware
    datetimes sharing one time zone object, which Python carries out on the
    wall clock, so the count is exact; the conversion of each run to the
    local zone for display is not modelled.
 */
module Dashboard {
  import opened Results
  import opened Quotes
  import opened Calendar
  import opened Sizing
  import opened Options

  // ---------------------------------------------------------------- weekly run times

  const MicrosPerMinute := 60 * 1000000
  const MicrosPerDay := 24 * 60 * MicrosPerMinute
  const MicrosPerWeek := 7 * MicrosPerDay

  /** The day number of a moment. */
  function DayOf(t: int): int {
    t / MicrosPerDay
  }

  /** The time of day of a moment, in microseconds after midnight. */
  function TimeOfDay(t: int): int {
    t % MicrosPerDay
  }

  /** A wall-clock time `time(hour, minute)` accepts. */
  predicate ValidClock(hour: int, minute: int) {
    0 <= hour < 24 && 0 <= minute < 60
  }

  function ClockMicros(hour: int, minute: int): int {
    (hour * 60 + minute) * MicrosPerMinute
  }

  /** A moment at which the weekly jobs run: a Friday at `hour:minute`. */
  predicate IsRunTime(t: int, hour: int, minute: int) {
    Weekday(DayOf(t)) == Friday && TimeOfDay(t) == ClockMicros(hour, minute)
  }

  /** The moment `hour:minute` on day `day`. */
  function At(day: int, hour: int, minute: int): (t: int)
    requires ValidClock(hour, minute)
    ensures DayOf(t) == day && TimeOfDay(t) == ClockMicros(hour, minute)
  {
    var t := day * MicrosPerDay + ClockMicros(hour, minute);
    DivModUnique(t, MicrosPerDay, day, ClockMicros(hour, minute));
    t
  }

  /** `(4 - weekday) % 7`: the days from `day` to the coming Friday, 0 on a Friday. */
  function DaysToFriday(day: int): (n: int)
    ensures 0 <= n < 7 && Weekday(day + n) == Friday
  {
    WeekdayAdvance(day, Friday);
    (Friday - Weekday(day)) % 7
  }

  /** `next_weekly_times`: `weeks` run times a week apart, starting at the
      first Friday `hour:minute` that is not before `now`; `time()` rejects
      an hour or minute out of range. */
  function NextWeeklyTimes(now: int, hour: int, minute: int, weeks: int): (r: Result<seq<int>>)
    ensures r.Err? <==> !ValidClock(hour, minute)
    ensures r.Err? ==> r.error == InvalidTime
    ensures r.Ok? ==> |r.value| == (if weeks > 0 then weeks else 0)
    ensures r.Ok? ==> forall i :: 0 <= i < |r.value| ==> r.value[i] >= now && IsRunTime(r.value[i], hour, minute)
    ensures r.Ok? ==> forall i :: 0 < i < |r.value| ==> r.value[i] == r.value[i - 1] + MicrosPerWeek
  {
    if !ValidClock(hour, minute) then Err(InvalidTime)
    else Ok(WeeklyFrom(FirstRun(now, hour, minute), hour, minute, if weeks > 0 then weeks else 0))
  }

  /** `n` run times a week apart from the run time `base`. */
  function WeeklyFrom(base: int, hour: int, minute: int, n: nat): (r: seq<int>)
    requires ValidClock(hour, minute) && IsRunTime(base, hour, minute)
    ensures |r| == n
    ensures forall i :: 0 <= i < n ==> r[i] >= base && IsRunTime(r[i], hour, minute)
    ensures forall i :: 0 < i < n ==> r[i] == r[i - 1] + MicrosPerWeek
    ensures n > 0 ==> r[0] == base
  {
    var r := seq(n, i => base + i * MicrosPerWeek);
    WeeklySteps(base, n);
    WeeklyRunTimes(base, hour, minute, n);
    r
  }

  /** Consecutive entries of the weekly list are a week apart. */
  lemma WeeklySteps(base: int, n: nat)
    ensures forall i :: 0 < i < n ==> base + i * MicrosPerWeek == base + (i - 1) * MicrosPerWeek + MicrosPerWeek
    ensures forall i :: 0 <= i < n ==> base + i * MicrosPerWeek >= base
  {
  }

  /** Every entry of the weekly list is a run time. */
  lemma WeeklyRunTimes(base: int, hour: int, minute: int, n: nat)
    requires ValidClock(hour, minute) && IsRunTime(base, hour, minute)
    ensures forall i :: 0 <= i < n ==> IsRunTime(base + i * MicrosPerWeek, hour, minute)
  {
    forall i | 0 <= i < n
      ensures IsRunTime(base + i * MicrosPerWeek, hour, minute)
    {
      RunTimeShift(base, hour, minute, i);
    }
  }

  /** The first entry of `next_weekly_times`: the run time on the coming
      Friday, a week later if that is already past. */
  function FirstRun(now: int, hour: int, minute: int): (base: int)
    requires ValidClock(hour, minute)
    ensures base >= now && IsRunTime(base, hour, minute)
  {
    var today := DayOf(now);
    var day := today + DaysToFriday(today);
    var base := At(day, hour, minute);
    if base < now then
      RunTimeShift(base, hour, minute, 1);
      WeekLaterPasses(now, base);
      base + MicrosPerWeek
    else base
  }

  /** A week after a moment on a day not before `now`'s day is past `now`. */
  lemma WeekLaterPasses(now: int, t: int)
    requires DayOf(now) <= DayOf(t)
    ensures now < t + MicrosPerWeek
  {
    WithinDay(now);
    WithinDay(t);
    MulLower(DayOf(t) + 7 - DayOf(now), MicrosPerDay);
  }

  /** A moment lies within its day. */
  lemma WithinDay(t: int)
    ensures t == DayOf(t) * MicrosPerDay + TimeOfDay(t)
    ensures 0 <= TimeOfDay(t) < MicrosPerDay
  {
  }

  /** Whole weeks later it is again a run time. */
  lemma RunTimeShift(t: int, hour: int, minute: int, weeks: int)
    requires ValidClock(hour, minute) && IsRunTime(t, hour, minute)
    ensures IsRunTime(t + weeks * MicrosPerWeek, hour, minute)
  {
    var day := DayOf(t);
    assert t == day * MicrosPerDay + ClockMicros(hour, minute);
    DivModUnique(t + weeks * MicrosPerWeek, MicrosPerDay, day + 7 * weeks, ClockMicros(hour, minute));
    WeekdayShift(day, weeks);
  }

  /** The list starts at the earliest run time not before `now`: no run
      time at or after `now` comes before its first entry. */
  lemma NextWeeklyTimesEarliest(now: int, hour: int, minute: int, weeks: int, t: int)
    requires weeks > 0 && ValidClock(hour, minute)
    requires t >= now && IsRunTime(t, hour, minute)
    ensures NextWeeklyTimes(now, hour, minute, weeks).Ok?
    ensures NextWeeklyTimes(now, hour, minute, weeks).value[0] <= t
  {
    FirstRunEarliest(now, hour, minute, t);
  }

  /** No run time at or after `now` comes before `FirstRun(now, ...)`. */
  lemma {:induction false} FirstRunEarliest(now: int, hour: int, minute: int, t: int)
    requires ValidClock(hour, minute)
    requires t >= now && IsRunTime(t, hour, minute)
    ensures FirstRun(now, hour, minute) <= t
  {
    var today := DayOf(now);
    var friday := today + DaysToFriday(today);
    var b0 := At(friday, hour, minute);
    var k := WeeksApart(b0, t, hour, minute);
    // `now` lies within `today` and `friday` less than a week after it, so
    // a run time a week or more before `b0` is before `now`; and when `b0`
    // itself is before `now` the first run is a week later.
    assert today * MicrosPerDay <= now;
    assert b0 < (today + 7) * MicrosPerDay;
    MulLower(k, MicrosPerWeek);
  }

  /** Two run times at the same clock time lie whole weeks apart. */
  lemma WeeksApart(t1: int, t2: int, hour: int, minute: int) returns (k: int)
    requires ValidClock(hour, minute) && IsRunTime(t1, hour, minute) && IsRunTime(t2, hour, minute)
    ensures t2 == t1 + k * MicrosPerWeek
  {
    var d1, d2 := DayOf(t1), DayOf(t2);
    SameWeekday(d1, d2);
    k := (d2 - d1) / 7;
    DivModUnique(d2 - d1, 7, k, 0);
    assert t1 == d1 * MicrosPerDay + ClockMicros(hour, minute);
    assert t2 == d2 * MicrosPerDay + ClockMicros(hour, minute);
  }

  /** A Friday 09:35 run asked for at 10:00 on that Friday goes to the next
      Friday; asked for at 09:00 it is the same morning.  2024-01-05 is the
      Friday with day number 738889. */
  lemma NextWeeklyTimesScenario()
    ensures NextWeeklyTimes(At(738889, 10, 0), 9, 35, 2) == Ok([At(738896, 9, 35), At(738903, 9, 35)])
    ensures NextWeeklyTimes(At(738889, 9, 0), 9, 35, 1) == Ok([At(738889, 9, 35)])
    ensures NextWeeklyTimes(At(738889, 9, 0), 24, 0, 1) == Err(InvalidTime)
  {
    assert Weekday(738889) == Friday;
    assert DaysToFriday(738889) == 0;
    assert DayOf(At(738889, 10, 0)) == 738889;
    assert DayOf(At(738889, 9, 0)) == 738889;
    var r := NextWeeklyTimes(At(738889, 10, 0), 9, 35, 2);
    assert r.value[0] == At(738896, 9, 35);
    assert r.value[1] == At(738903, 9, 35);
    assert r.value == [At(738896, 9, 35), At(738903, 9, 35)];
    var s := NextWeeklyTimes(At(738889, 9, 0), 9, 35, 1);
    assert s.value == [At(738889, 9, 35)];
  }

  // ---------------------------------------------------------------- covered-call sizing

  const SharesPerContract := 100

  /** The sizing of `run_nugt_cc_dry`: the underlying price, the shares the
      budget buys (at least one), the whole option contracts those shares
      cover, and whether the call leg is sold. */
  datatype CoveredCallPlan = CoveredCallPlan(price: real, shares: int, contracts: int, sellCall: bool)

  /** `run_nugt_cc_dry` up to its orders: no price is an error; otherwise
      `max(1, budget // px)` shares, `shares // 100` contracts, and the call
      leg only for at least one contract (else a skip message). */
  function CoveredCallSizing(budget: real, t: Ticker): (r: Result<CoveredCallPlan>)
    ensures r.Err? <==> UnderlyingPrice(t).Err?
    ensures r.Err? ==> r.error == PriceUnavailable
    ensures r.Ok? ==> r.value.price == UnderlyingPrice(t).value && r.value.price > 0.0
    ensures r.Ok? ==> r.value.shares == AtLeastOne(budget, r.value.price)
    ensures r.Ok? ==> r.value.contracts * SharesPerContract <= r.value.shares
                      < (r.value.contracts + 1) * SharesPerContract
    ensures r.Ok? ==> (r.value.sellCall <==> r.value.contracts >= 1)
  {
    match UnderlyingPrice(t)
    case Err(e) => Err(e)
    case Ok(px) =>
      var shares := AtLeastOne(budget, px);
      var contracts := shares / SharesPerContract;
      DivModUnique(shares, SharesPerContract, contracts, shares % SharesPerContract);
      Ok(CoveredCallPlan(px, shares, contracts, contracts >= 1))
  }

  /** The call leg is sold exactly when the budget buys at least 100
      shares at the quoted price. */
  lemma {:induction false} CallLegIffBudget(budget: real, t: Ticker)
    requires CoveredCallSizing(budget, t).Ok?
    ensures CoveredCallSizing(budget, t).value.sellCall <==> budget >= 100.0 * UnderlyingPrice(t).value
  {
    var px := UnderlyingPrice(t).value;
    FloorDivAtLeast(budget, px, 100);
  }

  /** A 5000 budget at 120 buys 41 shares, short of one contract, so the
      call leg is skipped. */
  lemma CoveredCallScenario()
    ensures CoveredCallSizing(5000.0, Ticker(Fin(120.0), Absent, Absent, Absent, Absent, Absent))
            == Ok(CoveredCallPlan(120.0, 41, 0, false))
  {
    var t := Ticker(Fin(120.0), Absent, Absent, Absent, Absent, Absent);
    assert UnderlyingCandidates(t)[0] == Fin(120.0);
    assert UnderlyingPrice(t) == Ok(120.0);
    FloorDivBounds(5000.0, 120.0);
    assert FloorDiv(5000.0, 120.0) == 41;
  }
}

=== FILE: ib_client.dfy ===
/** The decision logic of src/ib_client.py: which ticker field is the price
    (`resolve_price`), the subscribe / poll / cancel sequence of `wait_price`,
    and the client-id retry sequence of `IBClient.connect`.

    The broker is an oracle.  `wait_price` sees the snapshot ticker and the
    successive states of the streaming ticker it polls before the deadline
    (how many fit into the timeout depends on the clock, so the sequence of
    polls is the parameter); `connect` sees, for each client id, whether the
    connection came up.  Both return the trace of broker requests they make.
 */
module IbClient {
  import opened Results
  import opened Quotes

  // ---------------------------------------------------------------- price

  /** `resolve_price`: the first of last, close, marketPrice that is a finite
      positive number; failing that the mid of bid and ask when both are;
      otherwise nothing. */
  function ResolvePrice(t: Ticker): (r: Option<real>)
    ensures r.Some? ==> r.value > 0.0
    ensures IsPos(t.last) ==> r == Some(t.last.r)
    ensures !IsPos(t.last) && IsPos(t.close) ==> r == Some(t.close.r)
    ensures !IsPos(t.last) && !IsPos(t.close) && IsPos(t.marketPrice) ==> r == Some(t.marketPrice.r)
    ensures !IsPos(t.last) && !IsPos(t.close) && !IsPos(t.marketPrice) ==>
              r == (if IsPos(t.bid) && IsPos(t.ask) then Some((t.bid.r + t.ask.r) / 2.0) else None)
  {
    if IsPos(t.last) then Some(t.last.r)
    else if IsPos(t.close) then Some(t.close.r)
    else if IsPos(t.marketPrice) then Some(t.marketPrice.r)
    else if IsPos(t.bid) && IsPos(t.ask) then Some((t.bid.r + t.ask.r) / 2.0)
    else None
  }

  /** No price comes out of a ticker exactly when none of the three direct
      fields is usable and bid and ask are not both usable. */
  lemma ResolvePriceNone(t: Ticker)
    ensures ResolvePrice(t).None? <==>
              !IsPos(t.last) && !IsPos(t.close) && !IsPos(t.marketPrice) && !(IsPos(t.bid) && IsPos(t.ask))
  {
  }

  /** A mid price lies between the bid and the ask. */
  lemma ResolvedMidBetween(t: Ticker)
    requires !IsPos(t.last) && !IsPos(t.close) && !IsPos(t.marketPrice) && IsPos(t.bid) && IsPos(t.ask)
    requires t.bid.r <= t.ask.r
    ensures t.bid.r <= ResolvePrice(t).value <= t.ask.r
  {
  }

  /** The library's "no data" values — last -1, NaN close, marketPrice 0 —
      give no price, and neither does a one-sided book. */
  lemma ResolvePriceSentinels()
    ensures ResolvePrice(Ticker(Fin(-1.0), NaN, Fin(5.0), NaN, Fin(0.0), NaN)).None?
    ensures ResolvePrice(Ticker(Absent, Fin(4.0), Inf(false), Absent, NaN, Absent)).None?
  {
  }

  // ---------------------------------------------------------------- wait_price

  /** The market-data requests `wait_price` makes. */
  datatype DataEvent = SubscribeSnapshot | SubscribeStreaming | Poll | Cancel

  /** No subscription is open at the end of the trace: every subscribe is
      followed by a cancel before the next subscribe, and the trace ends
      with a cancel. */
  predicate ClosedTrace(trace: seq<DataEvent>) {
    && |trace| > 0 && trace[|trace| - 1] == Cancel
    && forall i :: 0 <= i < |trace| && (trace[i] == SubscribeSnapshot || trace[i] == SubscribeStreaming) ==>
         exists j :: i < j < |trace| && trace[j] == Cancel
                     && forall k :: i < k < j ==> trace[k] != SubscribeSnapshot && trace[k] != SubscribeStreaming
  }

  /** The first price among the polled ticker states, with the number of
      polls it took. */
  function FirstPolledPrice(polls: seq<Ticker>): (r: (Option<real>, nat))
    ensures r.1 <= |polls|
    ensures r.0.None? <==> forall i :: 0 <= i < |polls| ==> ResolvePrice(polls[i]).None?
    ensures r.0.None? ==> r.1 == |polls|
    ensures r.0.Some? ==> r.1 >= 1 && r.0 == ResolvePrice(polls[r.1 - 1])
                          && forall i :: 0 <= i < r.1 - 1 ==> ResolvePrice(polls[i]).None?
    decreases |polls|
  {
    if |polls| == 0 then (None, 0)
    else if ResolvePrice(polls[0]).Some? then (ResolvePrice(polls[0]), 1)
    else
      var rest := FirstPolledPrice(polls[1..]);
      assert forall i :: 1 <= i < |polls| ==> polls[i] == polls[1..][i - 1];
      (rest.0, rest.1 + 1)
  }

  function Polls(n: nat): (r: seq<DataEvent>)
    ensures |r| == n && forall i :: 0 <= i < n ==> r[i] == Poll
  {
    seq(n, i => Poll)
  }

  /** `wait_price`: the snapshot first, and only when it gives no price a
      streaming subscription polled until a price appears or the polls run
      out; the subscription is cancelled on every way out. */
  method WaitPrice(snapshot: Ticker, polls: seq<Ticker>) returns (px: Option<real>, trace: seq<DataEvent>)
    ensures px.Some? ==> px.value > 0.0
    ensures ResolvePrice(snapshot).Some? ==> px == ResolvePrice(snapshot) && trace == [SubscribeSnapshot, Cancel]
    ensures ResolvePrice(snapshot).None? ==>
              px == FirstPolledPrice(polls).0
              && trace == [SubscribeSnapshot, Cancel, SubscribeStreaming] + Polls(FirstPolledPrice(polls).1) + [Cancel]
    ensures SubscribeStreaming in trace <==> ResolvePrice(snapshot).None?
    ensures ClosedTrace(trace)
  {
    trace := [SubscribeSnapshot];
    px := ResolvePrice(snapshot);
    if px.Some? {
      trace := trace + [Cancel];
      assert ClosedTrace(trace) by { assert trace[0] == SubscribeSnapshot && trace[1] == Cancel; }
      return;
    }
    trace := trace + [Cancel, SubscribeStreaming];
    var i := 0;
    while i < |polls|
      invariant 0 <= i <= |polls|
      invariant forall k :: 0 <= k < i ==> ResolvePrice(polls[k]).None?
      invariant trace == [SubscribeSnapshot, Cancel, SubscribeStreaming] + Polls(i)
      invariant px.None?
    {
      trace := trace + [Poll];
      assert Polls(i) + [Poll] == Polls(i + 1);
      px := ResolvePrice(polls[i]);
      if px.Some? {
        trace := trace + [Cancel];
        FirstPolledPriceAt(polls, i);
        StreamingTraceClosed(i + 1);
        return;
      }
      i := i + 1;
    }
    trace := trace + [Cancel];
    StreamingTraceClosed(|polls|);
  }

  /** A first price at poll `i` is what `FirstPolledPrice` finds. */
  lemma FirstPolledPriceAt(polls: seq<Ticker>, i: nat)
    requires i < |polls| && ResolvePrice(polls[i]).Some?
    requires forall k :: 0 <= k < i ==> ResolvePrice(polls[k]).None?
    ensures FirstPolledPrice(polls) == (ResolvePrice(polls[i]), i + 1)
  {
    var r := FirstPolledPrice(polls);
    assert r.0.Some?;
    assert r.1 - 1 == i;
  }

  /** The streaming trace of `n` polls is closed. */
  lemma StreamingTraceClosed(n: nat)
    ensures ClosedTrace([SubscribeSnapshot, Cancel, SubscribeStreaming] + Polls(n) + [Cancel])
  {
    var t := [SubscribeSnapshot, Cancel, SubscribeStreaming] + Polls(n) + [Cancel];
    assert t[1] == Cancel;
    assert t[|t| - 1] == Cancel;
    assert forall k :: 3 <= k < |t| - 1 ==> t[k] == Polls(n)[k - 3];
    forall i | 0 <= i < |t| && (t[i] == SubscribeSnapshot || t[i] == SubscribeStreaming)
      ensures exists j :: i < j < |t| && t[j] == Cancel
                          && forall k :: i < k < j ==> t[k] != SubscribeSnapshot && t[k] != SubscribeStreaming
    {
      if i == 0 {
        assert t[1] == Cancel;
      } else {
        var j := |t| - 1;
        assert t[j] == Cancel;
      }
    }
  }

  // ---------------------------------------------------------------- connect

  /** The broker requests `IBClient.connect` makes. */
  datatype ConnEvent = Attempt(clientId: int) | Disconnect

  /** The requests for `n` failed ids from `base` on: an attempt, then an
      explicit disconnect, for each. */
  function FailedAttempts(base: int, n: nat): (r: seq<ConnEvent>)
    ensures |r| == 2 * n
  {
    if n == 0 then [] else FailedAttempts(base, n - 1) + [Attempt(base + n - 1), Disconnect]
  }

  /** `IBClient.connect`: client ids `base`, `base + 1`, ... up to
      `maxTryIds` of them, disconnecting after each failure; the first id
      the broker accepts is stored, and running out of ids raises.
      `accepts(id)` is the oracle: whether the connection with that id came
      up (a raised error counts as not). */
  method Connect(base: int, maxTryIds: int, accepts: int -> bool) returns (r: Result<int>, trace: seq<ConnEvent>)
    ensures r.Ok? <==> exists id :: base <= id < base + maxTryIds && accepts(id)
    ensures r.Ok? ==> base <= r.value < base + maxTryIds && accepts(r.value)
                      && (forall id :: base <= id < r.value ==> !accepts(id))
                      && trace == FailedAttempts(base, r.value - base) + [Attempt(r.value)]
    ensures r.Err? ==> r.error == ConnectFailed
                       && trace == FailedAttempts(base, if maxTryIds < 0 then 0 else maxTryIds)
  {
    trace := [];
    var offset := 0;
    while offset < maxTryIds
      invariant 0 <= offset && (maxTryIds >= 0 ==> offset <= maxTryIds) && (maxTryIds < 0 ==> offset == 0)
      invariant forall id :: base <= id < base + offset ==> !accepts(id)
      invariant trace == FailedAttempts(base, offset)
    {
      var cid := base + offset;
      if accepts(cid) {
        trace := trace + [Attempt(cid)];
        r := Ok(cid);
        return;
      }
      trace := trace + [Attempt(cid), Disconnect];
      offset := offset + 1;
    }
    r := Err(ConnectFailed);
  }
}

=== FILE: options.dfy ===
/** Option contract selection (src/ib/options.py): the underlying's price from
    a snapshot ticker, the nearest-Friday expiry, the strike nearest a target,
    `pick_option_contract`, and the `sell_option` order.

    The broker's answers (the snapshot ticker, contract details, option-chain
    parameters, qualified contracts, assigned order ids) and today's date are
    parameters.  Expiry strings are ISO 8601 calendar dates `YYYY-MM-DD`;
    today is a day number (see `Calendar`).
 */
module Options {
  import opened Results
  import opened Quotes
  import opened Selection
  import opened Calendar
  import opened Text
  import opened Orders

  datatype Right = C | P

  function RightText(right: Right): string {
    if right == C then "C" else "P"
  }

  // ---------------------------------------------------------------- underlying price

  /** `(bid + ask) / 2`, or `None` when either side is missing. */
  function MidCandidate(t: Ticker): Num {
    if t.bid.Absent? || t.ask.Absent? then Absent else Halve(Add(t.bid, t.ask))
  }

  /** The candidates of `_underlying_price`, in priority order. */
  function UnderlyingCandidates(t: Ticker): seq<Num> {
    [t.last, MidCandidate(t), t.close, t.marketPrice]
  }

  /** `_underlying_price`: the first candidate that is finite and strictly
      positive; `RuntimeError` when there is none. */
  function UnderlyingPrice(t: Ticker): (r: Result<real>)
    ensures r.Ok? ==> r.value > 0.0
    ensures r.Err? ==> r.error == PriceUnavailable
    ensures r.Err? <==> forall i :: 0 <= i < 4 ==> !IsPos(UnderlyingCandidates(t)[i])
    ensures r.Ok? ==> exists i :: 0 <= i < 4 && UnderlyingCandidates(t)[i] == Fin(r.value)
                                 && forall j :: 0 <= j < i ==> !IsPos(UnderlyingCandidates(t)[j])
  {
    var cands := UnderlyingCandidates(t);
    match FirstWhere(cands, IsPos)
    case None => Err(PriceUnavailable)
    case Some(i) => Ok(cands[i].r)
  }

  /** The candidates are taken in the order last, mid, close, marketPrice. */
  lemma UnderlyingPricePrecedence(t: Ticker)
    ensures IsPos(t.last) ==> UnderlyingPrice(t) == Ok(t.last.r)
    ensures !IsPos(t.last) && IsPos(t.bid) && IsPos(t.ask)
            ==> UnderlyingPrice(t) == Ok((t.bid.r + t.ask.r) / 2.0)
    ensures !IsPos(t.last) && (t.bid.Absent? || t.ask.Absent?) && IsPos(t.close)
            ==> UnderlyingPrice(t) == Ok(t.close.r)
    ensures !IsPos(t.last) && !IsPos(MidCandidate(t)) && !IsPos(t.close) && IsPos(t.marketPrice)
            ==> UnderlyingPrice(t) == Ok(t.marketPrice.r)
  {
    var cands := UnderlyingCandidates(t);
    assert cands[0] == t.last && cands[1] == MidCandidate(t) && cands[2] == t.close && cands[3] == t.marketPrice;
    if !IsPos(t.last) && IsPos(t.bid) && IsPos(t.ask) {
      assert MidCandidate(t) == Fin((t.bid.r + t.ask.r) / 2.0);
    }
  }

  /** The mid candidate needs only both sides present, not both positive: a
      missing-bid sentinel of -1 against an ask of 5 yields a price of 2. */
  lemma MidAcceptsNegativeBid()
    ensures UnderlyingPrice(Ticker(Absent, Fin(-1.0), Fin(5.0), Absent, NaN, NaN)) == Ok(2.0)
  {
    var t := Ticker(Absent, Fin(-1.0), Fin(5.0), Absent, NaN, NaN);
    assert UnderlyingCandidates(t)[1] == Fin(2.0);
  }

  // ---------------------------------------------------------------- expiry

  /** Every listed expiry is an ISO date `fromisoformat` accepts. */
  predicate AllParse(expirations: seq<string>) {
    forall i :: 0 <= i < |expirations| ==> ParseIso(expirations[i]).Some?
  }

  /** Day number of an expiry string (0 for strings that do not parse; callers
      check `AllParse` first). */
  function Day(s: string): int {
    if ParseIso(s).Some? then DayNumber(ParseIso(s).value) else 0
  }

  predicate IsFriday(s: string) {
    Weekday(Day(s)) == Friday
  }

  /** The earliest of a non-empty list of expiries. */
  function Earliest(xs: seq<string>): (r: string)
    requires |xs| > 0
    ensures r in xs
    ensures forall s :: s in xs ==> Day(r) <= Day(s)
  {
    var i := ArgMin(xs, (s: string) => Day(s) as real);
    assert forall j :: 0 <= j < |xs| ==> Day(xs[i]) <= Day(xs[j]);
    xs[i]
  }

  function FutureOf(expirations: seq<string>, today: int): (r: seq<string>)
    ensures forall s :: s in r <==> s in expirations && Day(s) >= today
  {
    Filter(expirations, (s: string) => Day(s) >= today)
  }

  /** `_nearest_expiry_friday`: among expiries on or after today, the earliest
      Friday, or the earliest date when none is a Friday. */
  function NearestExpiryFriday(expirations: seq<string>, today: int): (r: Result<string>)
    ensures r == Err(MalformedDate) <==> !AllParse(expirations)
    ensures r == Err(NoFutureExpirations) <==>
              AllParse(expirations) && forall s :: s in expirations ==> Day(s) < today
    ensures r.Err? ==> r.error in {MalformedDate, NoFutureExpirations}
    ensures r.Ok? ==> r.value in expirations && ParseIso(r.value).Some? && Day(r.value) >= today
    ensures r.Ok? && (exists s :: s in expirations && Day(s) >= today && IsFriday(s)) ==>
              IsFriday(r.value)
              && forall s :: s in expirations && Day(s) >= today && IsFriday(s) ==> Day(r.value) <= Day(s)
    ensures r.Ok? && !(exists s :: s in expirations && Day(s) >= today && IsFriday(s)) ==>
              forall s :: s in expirations && Day(s) >= today ==> Day(r.value) <= Day(s)
  {
    if !AllParse(expirations) then Err(MalformedDate)
    else
      var future := FutureOf(expirations, today);
      if |future| == 0 then
        assert forall s :: s in expirations ==> Day(s) < today;
        Err(NoFutureExpirations)
      else
        var fridays := Filter(future, IsFriday);
        if |fridays| > 0 then Ok(Earliest(fridays))
        else Ok(Earliest(future))
  }

  /** Without the Friday preference: the earliest expiry on or after today. */
  function EarliestFuture(expirations: seq<string>, today: int): (r: Result<string>)
    ensures r == Err(MalformedDate) <==> !AllParse(expirations)
    ensures r == Err(NoFutureExpirations) <==>
              AllParse(expirations) && forall s :: s in expirations ==> Day(s) < today
    ensures r.Err? ==> r.error in {MalformedDate, NoFutureExpirations}
    ensures r.Ok? ==> r.value in expirations && ParseIso(r.value).Some? && Day(r.value) >= today
    ensures r.Ok? ==> forall s :: s in expirations && Day(s) >= today ==> Day(r.value) <= Day(s)
  {
    if !AllParse(expirations) then Err(MalformedDate)
    else
      var future := FutureOf(expirations, today);
      if |future| == 0 then
        assert forall s :: s in expirations ==> Day(s) < today;
        Err(NoFutureExpirations)
      else Ok(Earliest(future))
  }

  /** The source picks from the string-sorted expiry list: the first future
      one, or the first future Friday.  On accepted ISO strings that is the
      date-earliest choice the model makes, because string order is date
      order (`Calendar.IsoOrder`). */
  lemma EarliestFutureIsSortedFirst(expirations: seq<string>, today: int)
    requires EarliestFuture(expirations, today).Ok?
    ensures forall s :: s in expirations && Day(s) >= today ==> LexLe(EarliestFuture(expirations, today).value, s)
  {
    var r := EarliestFuture(expirations, today).value;
    forall s | s in expirations && Day(s) >= today ensures LexLe(r, s) {
      ListedParses(expirations, s);
      IsoOrder(r, s);
    }
  }

  /** With the Friday preference, the pick is the first future Friday of
      the sorted list, or its first future date when no Friday is listed. */
  lemma NearestFridayIsSortedFirst(expirations: seq<string>, today: int)
    requires NearestExpiryFriday(expirations, today).Ok?
    ensures var r := NearestExpiryFriday(expirations, today).value;
            && (forall s :: s in expirations && Day(s) >= today && IsFriday(s) ==> LexLe(r, s))
            && ((forall s :: s in expirations && Day(s) >= today ==> !IsFriday(s)) ==>
                  forall s :: s in expirations && Day(s) >= today ==> LexLe(r, s))
  {
    var r := NearestExpiryFriday(expirations, today).value;
    forall s | s in expirations && Day(s) >= today ensures IsFriday(s) || !IsFriday(r) ==> LexLe(r, s) {
      ListedParses(expirations, s);
      IsoOrder(r, s);
    }
  }

  /** A listed expiry parses once the whole list does. */
  lemma ListedParses(expirations: seq<string>, s: string)
    requires AllParse(expirations) && s in expirations
    ensures ParseIso(s).Some?
  {
    var i :| 0 <= i < |expirations| && expirations[i] == s;
  }

  // ---------------------------------------------------------------- strike

  function Abs(x: real): real {
    if x < 0.0 then -x else x
  }

  /** `_closest_strike`: `min(strikes, key=|s - target|)`, which raises on an
      empty ladder and keeps the first of equally close strikes. */
  function ClosestStrike(strikes: seq<real>, target: real): (r: Result<real>)
    ensures r.Err? <==> |strikes| == 0
    ensures r.Err? ==> r.error == EmptyStrikes
    ensures r.Ok? ==> r.value in strikes
    ensures r.Ok? ==> forall s :: s in strikes ==> Abs(r.value - target) <= Abs(s - target)
    ensures r.Ok? ==> exists i :: 0 <= i < |strikes| && strikes[i] == r.value
                                 && forall j :: 0 <= j < i ==> Abs(r.value - target) < Abs(strikes[j] - target)
  {
    if |strikes| == 0 then Err(EmptyStrikes)
    else
      var i := ArgMin(strikes, (s: real) => Abs(s - target));
      Ok(strikes[i])
  }

  /** On an ascending ladder the first of equally close strikes is the lower
      one, so a tie between two neighbours goes to the lower strike. */
  lemma ClosestStrikeTieGoesLower(strikes: seq<real>, target: real, x: real)
    requires Sorted(strikes)
    requires ClosestStrike(strikes, target) == Ok(x)
    ensures forall s :: s in strikes && Abs(s - target) == Abs(x - target) ==> x <= s
  {
    var i :| 0 <= i < |strikes| && strikes[i] == x
             && forall j :: 0 <= j < i ==> Abs(x - target) < Abs(strikes[j] - target);
    forall s | s in strikes && Abs(s - target) == Abs(x - target) ensures x <= s {
      var k :| 0 <= k < |strikes| && strikes[k] == s;
      assert i <= k;
      assert strikes[i] <= strikes[k];
    }
  }

  /** The ladder 95, 97.5, 100, 102.5, 105 with target 101.2 gives 100. */
  lemma ClosestStrikeScenario()
    ensures ClosestStrike([95.0, 97.5, 100.0, 102.5, 105.0], 101.2) == Ok(100.0)
  {
    var xs := [95.0, 97.5, 100.0, 102.5, 105.0];
    var r := ClosestStrike(xs, 101.2).value;
    assert Abs(r - 101.2) <= Abs(xs[2] - 101.2);
  }

  /** ATM +/- pct: above the price for a call, below it for a put. */
  function TargetStrike(right: Right, px: real, pct: real): real {
    if right == C then px * (1.0 + pct) else px * (1.0 - pct)
  }

  lemma TargetDirection(right: Right, px: real, pct: real)
    requires px > 0.0 && pct > 0.0
    ensures right == C ==> TargetStrike(right, px, pct) > px
    ensures right == P ==> TargetStrike(right, px, pct) < px
  {
    assert px * (1.0 + pct) - px == px * pct;
    assert px - px * (1.0 - pct) == px * pct;
    PositiveProduct(px, pct);
  }

  // ---------------------------------------------------------------- contract

  /** One entry of `reqSecDefOptParams`: listed expiries and strikes (`None`
      for a strike the query left empty). */
  datatype OptionParams = OptionParams(expirations: seq<string>, strikes: seq<Option<real>>)

  datatype Underlying = Underlying(symbol: string, exchange: string, currency: string)

  datatype Pick = Pick(contract: Contract, strike: real, expiry: string)

  function PresentStrikes(xs: seq<Option<real>>): (r: seq<real>)
    ensures forall s :: s in r <==> Some(s) in xs
  {
    if |xs| == 0 then []
    else
      var rest := PresentStrikes(xs[1..]);
      assert forall o :: o in xs <==> o == xs[0] || o in xs[1..];
      if xs[0].Some? then [xs[0].value] + rest else rest
  }

  /** `und_px`: the override when given, otherwise the snapshot price. */
  function UnderlyingPx(overridePrice: Option<real>, ticker: Ticker): Result<real> {
    if overridePrice.Some? then Ok(overridePrice.value) else UnderlyingPrice(ticker)
  }

  /** Expiry rule of `pick_option_contract`: listed, not in the past, and the
      earliest such date (a Friday first when Fridays are preferred). */
  ghost predicate ExpiryAsPromised(expiry: string, expirations: seq<string>, preferFriday: bool, today: int) {
    && expiry in expirations && ParseIso(expiry).Some? && Day(expiry) >= today
    && (!preferFriday ==> forall s :: s in expirations && Day(s) >= today ==> Day(expiry) <= Day(s))
    && (preferFriday && (exists s :: s in expirations && Day(s) >= today && IsFriday(s)) ==>
          IsFriday(expiry)
          && forall s :: s in expirations && Day(s) >= today && IsFriday(s) ==> Day(expiry) <= Day(s))
  }

  function ChooseExpiry(expirations: seq<string>, preferFriday: bool, today: int): (r: Result<string>)
    ensures r.Ok? ==> ExpiryAsPromised(r.value, expirations, preferFriday, today)
    ensures r.Err? <==> !AllParse(expirations) || forall s :: s in expirations ==> Day(s) < today
  {
    if preferFriday then NearestExpiryFriday(expirations, today) else EarliestFuture(expirations, today)
  }

  /** Strike rule: a listed strike no farther from the target than any
      other, and the lower of two equally close ones. */
  ghost predicate StrikeAsPromised(strike: real, strikes: seq<Option<real>>, target: real) {
    && Some(strike) in strikes
    && (forall s :: Some(s) in strikes ==> Abs(strike - target) <= Abs(s - target))
    && (forall s :: Some(s) in strikes && Abs(s - target) == Abs(strike - target) ==> strike <= s)
  }

  /** `strikes = sorted(...)` followed by `_closest_strike`. */
  function ChooseStrike(strikes: seq<Option<real>>, target: real): (r: Result<real>)
    ensures r.Ok? ==> StrikeAsPromised(r.value, strikes, target)
    ensures r.Err? <==> forall s :: Some(s) !in strikes
  {
    var ladder := Sort(PresentStrikes(strikes));
    LadderStrikes(strikes);
    var r := ClosestStrike(ladder, target);
    if r.Ok? then
      ClosestOnLadder(strikes, target, ladder, r.value);
      r
    else r
  }

  /** The sorted ladder holds exactly the strikes the chain lists. */
  lemma LadderStrikes(strikes: seq<Option<real>>)
    ensures forall s :: s in Sort(PresentStrikes(strikes)) <==> Some(s) in strikes
    ensures |Sort(PresentStrikes(strikes))| == 0 <==> forall s :: Some(s) !in strikes
  {
    var xs := PresentStrikes(strikes);
    SortSameElements(xs);
    if |xs| > 0 {
      assert xs[0] in xs;
    }
  }

  /** The closest strike of an ascending ladder of the listed strikes keeps
      the strike rule. */
  lemma {:induction false} ClosestOnLadder(strikes: seq<Option<real>>, target: real, ladder: seq<real>, x: real)
    requires Sorted(ladder) && forall s :: s in ladder <==> Some(s) in strikes
    requires ClosestStrike(ladder, target) == Ok(x)
    ensures StrikeAsPromised(x, strikes, target)
  {
    ClosestStrikeTieGoesLower(ladder, target, x);
  }

  /** `Option(und.symbol, expiry, strike, right, opt_exchange, und.currency)`
      as options.py:141 writes it.  The library's positional parameters are
      symbol, expiry, strike, right, exchange, multiplier, currency, so the
      underlying's currency lands in `multiplier` and `currency` stays empty. */
  function PositionalOption(und: Underlying, expiry: string, strike: real, right: Right,
                            exchange: string): Contract {
    OptionContract(und.symbol, expiry, strike, RightText(right), exchange, und.currency, "", "")
  }

  /** The contract evidently intended: the currency passed by keyword, as the
      put helper of src/ib/uvix_p_plus.py does, and no multiplier. */
  function IntendedOption(und: Underlying, expiry: string, strike: real, right: Right,
                          exchange: string): Contract {
    OptionContract(und.symbol, expiry, strike, RightText(right), exchange, "", und.currency, "")
  }

  /** `pick_option_contract`: price (override or snapshot), contract details,
      chain parameters, expiry, target and nearest strike; the contract gets
      the expiry in the broker's `YYYYMMDD` form while the `YYYY-MM-DD` text
      is returned alongside.  The contract is the intended one; the call as
      written is `PickOptionContractAsWritten`. */
  function PickOptionContract(und: Underlying, right: Right, pctOffset: real, preferFriday: bool,
                              optExchange: string, overridePrice: Option<real>, ticker: Ticker,
                              conIds: seq<int>, params: seq<OptionParams>, today: int): (r: Result<Pick>)
    ensures UnderlyingPx(overridePrice, ticker).Err? ==> r == Err(PriceUnavailable)
    ensures UnderlyingPx(overridePrice, ticker).Ok? && |conIds| == 0 ==> r == Err(UnderlyingNotFound)
    ensures r.Ok? ==> |params| > 0 && PickAsPromised(r.value, und, right, pctOffset, preferFriday, optExchange,
                                                    UnderlyingPx(overridePrice, ticker).value, params[0], today)
  {
    match UnderlyingPx(overridePrice, ticker)
    case Err(e) => Err(e)
    case Ok(px) =>
      if |conIds| == 0 then Err(UnderlyingNotFound)
      else if |params| == 0 then Err(NoOptionParams)
      else
        var p := params[0];
        match ChooseExpiry(p.expirations, preferFriday, today)
        case Err(e) => Err(e)
        case Ok(exp) =>
          match ChooseStrike(p.strikes, TargetStrike(right, px, pctOffset))
          case Err(e) => Err(e)
          case Ok(strike) =>
            StripDashesOfIso(exp);
            var opt := IntendedOption(und, StripDashes(exp), strike, right, optExchange);
            Ok(Pick(opt, strike, exp))
  }

  ghost predicate PickAsPromised(pick: Pick, und: Underlying, right: Right, pctOffset: real,
                                 preferFriday: bool, optExchange: string, px: real,
                                 p: OptionParams, today: int) {
    && ExpiryAsPromised(pick.expiry, p.expirations, preferFriday, today)
    && StrikeAsPromised(pick.strike, p.strikes, TargetStrike(right, px, pctOffset))
    && pick.contract.OptionContract?
    && pick.contract.symbol == und.symbol && pick.contract.currency == und.currency
    && pick.contract.multiplier == "" && pick.contract.tradingClass == ""
    && pick.contract.expiry == Compact(ParseIso(pick.expiry).value) && pick.contract.strike == pick.strike
    && pick.contract.right == RightText(right) && pick.contract.exchange == optExchange
  }

  /** `pick_option_contract` as written: the same choice of expiry and strike,
      on the contract `PositionalOption` builds. */
  function PickOptionContractAsWritten(und: Underlying, right: Right, pctOffset: real, preferFriday: bool,
                                       optExchange: string, overridePrice: Option<real>, ticker: Ticker,
                                       conIds: seq<int>, params: seq<OptionParams>, today: int): (r: Result<Pick>)
    ensures var c := PickOptionContract(und, right, pctOffset, preferFriday, optExchange, overridePrice, ticker,
                                        conIds, params, today);
            && (r.Ok? <==> c.Ok?)
            && (r.Err? ==> r == c)
            && (r.Ok? ==> r.value.strike == c.value.strike && r.value.expiry == c.value.expiry)
    ensures r.Ok? ==> r.value.contract.OptionContract?
                      && r.value.contract.currency == "" && r.value.contract.multiplier == und.currency
  {
    match PickOptionContract(und, right, pctOffset, preferFriday, optExchange, overridePrice, ticker,
                             conIds, params, today)
    case Err(e) => Err(e)
    case Ok(p) => Ok(p.(contract := PositionalOption(und, p.contract.expiry, p.strike, right, optExchange)))
  }

  /** Whenever a contract is picked for an underlying with a currency, the
      call as written leaves the contract's currency empty and so differs
      from the intended contract. */
  lemma PositionalCurrencyMisplaced(und: Underlying, right: Right, pctOffset: real, preferFriday: bool,
                                    optExchange: string, overridePrice: Option<real>, ticker: Ticker,
                                    conIds: seq<int>, params: seq<OptionParams>, today: int)
    requires und.currency != ""
    requires PickOptionContract(und, right, pctOffset, preferFriday, optExchange, overridePrice, ticker,
                                conIds, params, today).Ok?
    ensures var w := PickOptionContractAsWritten(und, right, pctOffset, preferFriday, optExchange,
                                                 overridePrice, ticker, conIds, params, today);
            var c := PickOptionContract(und, right, pctOffset, preferFriday, optExchange, overridePrice, ticker,
                                        conIds, params, today);
            && w.Ok? && w.value.contract.currency == "" && c.value.contract.currency == und.currency
            && w.value.contract != c.value.contract
  {
  }

  /** The concrete case: a USD underlying gets multiplier "USD" and no
      currency as written, and currency "USD" as intended. */
  lemma PositionalOptionScenario()
    ensures var und := Underlying("NUGT", "SMART", "USD");
            && PositionalOption(und, "20240119", 50.0, C, "SMART").currency == ""
            && PositionalOption(und, "20240119", 50.0, C, "SMART").multiplier == "USD"
            && IntendedOption(und, "20240119", 50.0, C, "SMART").currency == "USD"
  {
  }

  /** An override price makes the snapshot ticker irrelevant. */
  lemma OverrideSkipsLookup(und: Underlying, right: Right, pctOffset: real, preferFriday: bool,
                            optExchange: string, px: real, t1: Ticker, t2: Ticker,
                            conIds: seq<int>, params: seq<OptionParams>, today: int)
    ensures PickOptionContract(und, right, pctOffset, preferFriday, optExchange, Some(px), t1, conIds, params, today)
         == PickOptionContract(und, right, pctOffset, preferFriday, optExchange, Some(px), t2, conIds, params, today)
  {
  }

  // ---------------------------------------------------------------- order

  /** `sell_option`: a MKT SELL for `qty` contracts.  In a dry run it is only
      logged; live, the contract must qualify to exactly one contract
      (`[qopt] = ...` raises otherwise) and the order is placed on it. */
  function SellOption(opt: Contract, qty: real, dryRun: bool, ocaGroup: Option<string>,
                      qualified: seq<Contract>, brokerId: int): (r: Result<Submission>)
    ensures dryRun ==> r.Ok? && r.value.placed == []
    ensures !dryRun ==> (r.Ok? <==> |qualified| == 1)
    ensures r.Err? ==> r.error == QualificationFailed
    ensures r.Ok? ==> r.value.order.orderType == "MKT" && r.value.order.action == "SELL"
                      && r.value.order.totalQuantity == qty
    ensures r.Ok? ==> SubmittedAsPromised(r.value, if dryRun then opt else qualified[0], dryRun, ocaGroup)
  {
    var o := MaybeTransmit(WithOca(NewOrder("SELL", "MKT", qty), ocaGroup), dryRun);
    if dryRun then Ok(Submission(o, []))
    else if |qualified| != 1 then Err(QualificationFailed)
    else Ok(Submit(qualified[0], o, false, brokerId))
  }
}

=== FILE: orders.dfy ===
/** Stock orders as plain records (src/ib/orders.py): market, limit and
    percentage-stop orders, the BUY-then-protective-STOP bracket, and the
    limit / stop / take-profit calculator.

    `placeOrder` is the broker's; here it is the list `placed` of
    (contract, order) pairs an operation hands to it, and the order id the
    broker assigns enters as a parameter.  Prices are `real`; rounding to
    cents is Python's float `round(x, 2)` and enters as the parameter
    `round2`, so every property below holds whatever that rounding does.
 */
module Orders {
  import opened Results

  /** `round(x, 2)` on floats, left abstract. */
  type Rounding = real -> real

  datatype Contract =
    | Stock(symbol: string, exchange: string, currency: string)
    | OptionContract(symbol: string, expiry: string, strike: real, right: string,
                     exchange: string, multiplier: string, currency: string, tradingClass: string)

  /** `StockSpec` and `stock_contract`: the stock a helper trades. */
  datatype StockSpec = StockSpec(symbol: string, exchange: string, currency: string)

  function StockContract(spec: StockSpec): Contract {
    Stock(spec.symbol, spec.exchange, spec.currency)
  }

  /** The fields of an `ib_insync` `Order` the code sets or reads.  An unset
      `lmtPrice` / `auxPrice` / `account` is `None`. */
  datatype Order = Order(
    action: string,
    orderType: string,
    totalQuantity: real,
    lmtPrice: Option<real>,
    auxPrice: Option<real>,
    tif: string,
    outsideRth: bool,
    transmit: bool,
    ocaGroup: string,
    parentId: int,
    orderId: int,
    account: Option<string>)

  /** `Order(action=..., orderType=..., totalQuantity=...)` with the library's
      defaults: transmit on, no OCA group, no parent, no id yet. */
  function NewOrder(action: string, orderType: string, qty: real): Order {
    Order(action, orderType, qty, None, None, "", false, true, "", 0, 0, None)
  }

  /** An order handed to the broker, with the contract it is for. */
  datatype Placed = Placed(contract: Contract, order: Order)

  /** What a single-order helper returns, and what it handed to the broker. */
  datatype Submission = Submission(order: Order, placed: seq<Placed>)

  /** `if oca_group:` — a group is used only when given and non-empty. */
  predicate OcaGiven(ocaGroup: Option<string>) {
    ocaGroup.Some? && ocaGroup.value != ""
  }

  function WithOca(o: Order, ocaGroup: Option<string>): Order {
    if OcaGiven(ocaGroup) then o.(ocaGroup := ocaGroup.value) else o
  }

  /** `_maybe_transmit`: a dry-run order is never transmitted. */
  function MaybeTransmit(o: Order, dryRun: bool): Order {
    o.(transmit := !dryRun)
  }

  /** The common tail of `market`, `limit_` and `stop_pct`: in a dry run the
      order is only logged; otherwise it is placed and the broker's copy,
      carrying the id it assigned, is returned. */
  function Submit(c: Contract, o: Order, dryRun: bool, brokerId: int): Submission {
    if dryRun then Submission(o, [])
    else
      var sent := o.(orderId := brokerId);
      Submission(sent, [Placed(c, sent)])
  }

  /** The shape every single-order helper promises about dry runs, transmit
      and the OCA group. */
  ghost predicate SubmittedAsPromised(s: Submission, c: Contract, dryRun: bool, ocaGroup: Option<string>) {
    && s.order.transmit == !dryRun
    && (OcaGiven(ocaGroup) ==> s.order.ocaGroup == ocaGroup.value)
    && (!OcaGiven(ocaGroup) ==> s.order.ocaGroup == "")
    && (dryRun ==> s.placed == [])
    && (!dryRun ==> s.placed == [Placed(c, s.order)])
  }

  /** `market`: a MKT order for `qty`. */
  function Market(spec: StockSpec, action: string, qty: real, dryRun: bool,
                  ocaGroup: Option<string>, brokerId: int): (s: Submission)
    ensures s.order.orderType == "MKT" && s.order.action == action && s.order.totalQuantity == qty
    ensures s.order.lmtPrice.None? && s.order.auxPrice.None?
    ensures SubmittedAsPromised(s, StockContract(spec), dryRun, ocaGroup)
  {
    var o := MaybeTransmit(WithOca(NewOrder(action, "MKT", qty), ocaGroup), dryRun);
    Submit(StockContract(spec), o, dryRun, brokerId)
  }

  /** `limit_`: an LMT order at `lmtPrice`. */
  function Limit(spec: StockSpec, action: string, qty: real, lmtPrice: real, dryRun: bool,
                 ocaGroup: Option<string>, brokerId: int): (s: Submission)
    ensures s.order.orderType == "LMT" && s.order.action == action && s.order.totalQuantity == qty
    ensures s.order.lmtPrice == Some(lmtPrice) && s.order.auxPrice.None?
    ensures SubmittedAsPromised(s, StockContract(spec), dryRun, ocaGroup)
  {
    var o := MaybeTransmit(WithOca(NewOrder(action, "LMT", qty).(lmtPrice := Some(lmtPrice)), ocaGroup), dryRun);
    Submit(StockContract(spec), o, dryRun, brokerId)
  }

  /** `side_for_stop or "SELL"`: a long position is assumed unless a side is given. */
  function StopSide(sideForStop: Option<string>): string {
    if sideForStop.Some? && sideForStop.value != "" then sideForStop.value else "SELL"
  }

  /** The stop level before rounding: below the reference for a SELL stop,
      above it for any other side. */
  function StopLevel(action: string, referencePrice: real, pct: real): real {
    if action == "SELL" then referencePrice * (1.0 - pct) else referencePrice * (1.0 + pct)
  }

  /** `stop_pct`: an STP order `pct` away from the reference price. */
  function StopPct(spec: StockSpec, qty: real, referencePrice: real, pct: real,
                   sideForStop: Option<string>, dryRun: bool, ocaGroup: Option<string>,
                   round2: Rounding, brokerId: int): (s: Submission)
    ensures s.order.orderType == "STP" && s.order.totalQuantity == qty
    ensures !(sideForStop.Some? && sideForStop.value != "") ==> s.order.action == "SELL"
    ensures sideForStop.Some? && sideForStop.value != "" ==> s.order.action == sideForStop.value
    ensures s.order.auxPrice == Some(round2(StopLevel(s.order.action, referencePrice, pct)))
    ensures s.order.lmtPrice.None?
    ensures SubmittedAsPromised(s, StockContract(spec), dryRun, ocaGroup)
  {
    var action := StopSide(sideForStop);
    var stopPrice := round2(StopLevel(action, referencePrice, pct));
    var o := NewOrder(action, "STP", qty).(auxPrice := Some(stopPrice));
    Submit(StockContract(spec), MaybeTransmit(WithOca(o, ocaGroup), dryRun), dryRun, brokerId)
  }

  /** A SELL stop lies strictly below a positive reference and a stop on any
      other side strictly above it, for any positive percentage; below 100% the
      SELL stop stays positive. */
  lemma StopDirection(action: string, referencePrice: real, pct: real)
    requires referencePrice > 0.0 && pct > 0.0
    ensures action == "SELL" ==> StopLevel(action, referencePrice, pct) < referencePrice
    ensures action == "SELL" && pct < 1.0 ==> StopLevel(action, referencePrice, pct) > 0.0
    ensures action != "SELL" ==> StopLevel(action, referencePrice, pct) > referencePrice
  {
    var cut := referencePrice * pct;
    PositiveProduct(referencePrice, pct);
    if action == "SELL" {
      ScaleDown(referencePrice, pct);
      assert StopLevel(action, referencePrice, pct) == referencePrice - cut;
      if pct < 1.0 {
        PositiveProduct(referencePrice, 1.0 - pct);
      }
    } else {
      ScaleUp(referencePrice, pct);
      assert StopLevel(action, referencePrice, pct) == referencePrice + cut;
    }
  }

  lemma PositiveProduct(a: real, b: real)
    requires a > 0.0 && b > 0.0
    ensures a * b > 0.0
  {
  }

  lemma ScaleDown(a: real, p: real)
    ensures a * (1.0 - p) == a - a * p
  {
  }

  lemma ScaleUp(a: real, p: real)
    ensures a * (1.0 + p) == a + a * p
  {
  }

  // ---------------------------------------------------------------- bracket

  datatype Bracket = Bracket(parent: Order, child: Order, parentTrade: Option<Order>, placed: seq<Placed>)

  /** `bracket_buy_with_stop`: a BUY parent (MKT or LMT) and a SELL STP child.
      Live, the parent is placed first and the child then carries the id the
      broker gave the parent.  The source sets neither an OCA group nor
      `transmit` here, so both orders keep the library default (transmit on). */
  function BracketBuyWithStop(spec: StockSpec, qty: real, entryType: string, lmtPrice: Option<real>,
                              stopPrice: real, tif: string, outsideRth: bool, dryRun: bool,
                              parentBrokerId: int, childBrokerId: int): (r: Result<Bracket>)
    ensures r.Err? <==> entryType == "LMT" && lmtPrice.None?
    ensures r.Err? ==> r.error == MissingLimitPrice
    ensures r.Ok? ==> BracketAsPromised(r.value, StockContract(spec), qty, entryType, lmtPrice,
                                        stopPrice, tif, outsideRth, dryRun)
  {
    if entryType == "LMT" && lmtPrice.None? then Err(MissingLimitPrice)
    else
      var p0 := NewOrder("BUY", entryType, qty).(tif := tif);
      var p1 := if entryType == "LMT" then p0.(lmtPrice := lmtPrice) else p0;
      var parent := p1.(outsideRth := outsideRth);
      var child := NewOrder("SELL", "STP", qty).(tif := tif, auxPrice := Some(stopPrice), outsideRth := outsideRth);
      var c := StockContract(spec);
      if dryRun then Ok(Bracket(parent, child, None, []))
      else
        var sentParent := parent.(orderId := parentBrokerId);
        var sentChild := child.(parentId := sentParent.orderId, orderId := childBrokerId);
        Ok(Bracket(sentParent, sentChild, Some(sentParent), [Placed(c, sentParent), Placed(c, sentChild)]))
  }

  ghost predicate BracketAsPromised(b: Bracket, c: Contract, qty: real, entryType: string,
                                    lmtPrice: Option<real>, stopPrice: real, tif: string,
                                    outsideRth: bool, dryRun: bool) {
    // parent: BUY entry
    && b.parent.action == "BUY" && b.parent.orderType == entryType
    && b.parent.totalQuantity == qty && b.parent.tif == tif && b.parent.outsideRth == outsideRth
    && (entryType == "LMT" ==> b.parent.lmtPrice == lmtPrice && lmtPrice.Some?)
    && (entryType != "LMT" ==> b.parent.lmtPrice.None?)
    // child: protective SELL stop of the same size
    && b.child.action == "SELL" && b.child.orderType == "STP"
    && b.child.totalQuantity == qty && b.child.tif == tif && b.child.outsideRth == outsideRth
    && b.child.auxPrice == Some(stopPrice)
    // neither is grouped or held back
    && b.parent.ocaGroup == "" && b.child.ocaGroup == ""
    && b.parent.transmit && b.child.transmit
    // dry run: nothing placed, child not linked
    && (dryRun ==> b.parentTrade.None? && b.placed == [] && b.child.parentId == 0)
    // live: parent placed first, child linked to the parent's broker id
    && (!dryRun ==> && b.parentTrade == Some(b.parent)
                    && b.child.parentId == b.parent.orderId
                    && b.placed == [Placed(c, b.parent), Placed(c, b.child)])
  }

  // ---------------------------------------------------------------- prices

  datatype Prices = Prices(limit: real, stop: real, takeProfit: Option<real>)

  /** Unrounded limit: the reference plus `bps` basis points. */
  function LimitLevel(referencePrice: real, slippageBps: int): real {
    referencePrice * (1.0 + slippageBps as real / 10000.0)
  }

  /** Unrounded long stop: the reference less `stopPct`. */
  function LongStopLevel(referencePrice: real, stopPct: real): real {
    referencePrice * (1.0 - stopPct)
  }

  /** Unrounded take-profit: the reference plus `takeProfitPct`. */
  function TakeProfitLevel(referencePrice: real, takeProfitPct: real): real {
    referencePrice * (1.0 + takeProfitPct)
  }

  /** `decide_lmt_stop_take`: limit, stop and optional take-profit from one
      reference price, each rounded to cents. */
  function DecideLmtStopTake(referencePrice: real, slippageBps: int, stopPct: real,
                             takeProfitPct: Option<real>, round2: Rounding): (p: Prices)
    ensures p.limit == round2(LimitLevel(referencePrice, slippageBps))
    ensures p.stop == round2(LongStopLevel(referencePrice, stopPct))
    ensures p.takeProfit.Some? <==> takeProfitPct.Some?
    ensures takeProfitPct.Some? ==> p.takeProfit.value == round2(TakeProfitLevel(referencePrice, takeProfitPct.value))
  {
    var lmt := round2(referencePrice * (1.0 + slippageBps as real / 10000.0));
    var stp := round2(referencePrice * (1.0 - stopPct));
    var tpf := if takeProfitPct.None? then None else Some(round2(referencePrice * (1.0 + takeProfitPct.value)));
    Prices(lmt, stp, tpf)
  }

  /** For a positive reference, the unrounded limit is at or above the
      reference exactly when the slippage is non-negative. */
  lemma LimitNotBelowReference(referencePrice: real, slippageBps: int)
    requires referencePrice > 0.0
    ensures LimitLevel(referencePrice, slippageBps) >= referencePrice <==> slippageBps >= 0
  {
    var f := slippageBps as real / 10000.0;
    assert LimitLevel(referencePrice, slippageBps) - referencePrice == referencePrice * f;
    if slippageBps < 0 {
      assert f < 0.0;
      assert referencePrice * f < 0.0;
    }
  }

  /** For a positive reference and a stop percentage strictly between 0 and 1,
      the unrounded long stop is positive and strictly below the reference. */
  lemma StopBelowReference(referencePrice: real, stopPct: real)
    requires referencePrice > 0.0 && 0.0 < stopPct < 1.0
    ensures 0.0 < LongStopLevel(referencePrice, stopPct) < referencePrice
  {
    assert referencePrice - LongStopLevel(referencePrice, stopPct) == referencePrice * stopPct;
  }

  /** A reference of 100 with 15 bps slippage, a 6% stop and no take-profit
      gives limit 100.15 and stop 94.00 under any rounding that keeps those
      cent values. */
  lemma DecideScenario(round2: Rounding)
    requires round2(100.15) == 100.15 && round2(94.0) == 94.0
    ensures DecideLmtStopTake(100.0, 15, 0.06, None, round2) == Prices(100.15, 94.0, None)
  {
    assert LimitLevel(100.0, 15) == 100.15;
    assert LongStopLevel(100.0, 0.06) == 94.0;
  }
}

=== FILE: price.dfy ===
/** `safe_price` (src/price.py): the price shown for a ticker of the watch
    list.  Unlike the other price rules it filters only missing values and
    NaN market prices, so negative, infinite and NaN field values can come
    through.
 */
module Price {
  import opened Results
  import opened Quotes
  import opened IbClient
  import opened Selection

  /** `marketPrice()` is used when it is truthy (present and non-zero) and
      not NaN. */
  predicate MarketPriceUsable(t: Ticker) {
    Truthy(t.marketPrice) && t.marketPrice != NaN
  }

  /** `safe_price`: nothing for a missing ticker; the market price when
      usable; otherwise the first present of midpoint, last and close. */
  function SafePrice(t: Option<Ticker>): (r: Num)
    ensures t.None? ==> r == Absent
    ensures t.Some? && MarketPriceUsable(t.value) ==> r == t.value.marketPrice
    ensures t.Some? && !MarketPriceUsable(t.value) && !t.value.midpoint.Absent? ==> r == t.value.midpoint
    ensures t.Some? && !MarketPriceUsable(t.value) && t.value.midpoint.Absent? && !t.value.last.Absent? ==>
              r == t.value.last
    ensures t.Some? && !MarketPriceUsable(t.value) && t.value.midpoint.Absent? && t.value.last.Absent? ==>
              r == t.value.close
    ensures r.Absent? <==> t.None? || (!MarketPriceUsable(t.value) && t.value.midpoint.Absent?
                                       && t.value.last.Absent? && t.value.close.Absent?)
  {
    if t.None? then Absent
    else if MarketPriceUsable(t.value) then t.value.marketPrice
    else
      var xs := [t.value.midpoint, t.value.last, t.value.close];
      assert xs[0] == t.value.midpoint && xs[1] == t.value.last && xs[2] == t.value.close;
      match FirstWhere(xs, (x: Num) => !x.Absent?)
      case None => Absent
      case Some(i) => xs[i]
  }

  /** Whatever `safe_price` returns is a value the ticker holds. */
  lemma SafePriceFromTicker(t: Ticker)
    ensures SafePrice(Some(t)) in {Absent, t.marketPrice, t.midpoint, t.last, t.close}
  {
  }

  /** The two price rules differ: a negative market price is shown by
      `safe_price` but never resolved by `resolve_price`, and a NaN midpoint
      is shown although the last trade is a usable price. */
  lemma SafePriceDiffersFromResolve()
    ensures SafePrice(Some(Ticker(Absent, Absent, Absent, Absent, Fin(-2.0), Absent))) == Fin(-2.0)
    ensures ResolvePrice(Ticker(Absent, Absent, Absent, Absent, Fin(-2.0), Absent)).None?
    ensures SafePrice(Some(Ticker(Fin(3.0), Absent, Absent, Absent, NaN, NaN))) == NaN
    ensures ResolvePrice(Ticker(Fin(3.0), Absent, Absent, Absent, NaN, NaN)) == Some(3.0)
  {
    assert MarketPriceUsable(Ticker(Absent, Absent, Absent, Absent, Fin(-2.0), Absent));
  }

  /** A usable finite positive market price with no usable last or close
      is what both rules give. */
  lemma SafePriceAgreesOnMarketPrice(t: Ticker)
    requires IsPos(t.marketPrice) && !IsPos(t.last) && !IsPos(t.close)
    ensures SafePrice(Some(t)) == t.marketPrice
    ensures ResolvePrice(t) == Some(t.marketPrice.r)
  {
  }
}

=== FILE: quotes.dfy ===
/** Quote fields as the Python code sees them, and the market-data ticker the
    broker hands back.

    A field of an `ib_insync` ticker is a Python float that may be missing
    (`None`), NaN or infinite; `Num` keeps those cases apart because each
    price-selection rule treats them differently.
 */
module Quotes {

  /** `None`, NaN, plus/minus infinity, or a finite float. */
  datatype Num = Absent | NaN | Inf(negative: bool) | Fin(r: real)

  /** `_is_finite` (src/ib/uvix_p_plus.py): not None, not NaN, not infinite. */
  predicate IsFinite(x: Num) {
    x.Fin?
  }

  /** `_is_pos` (src/ib/uvix_p_plus.py): finite and strictly positive. */
  predicate IsPos(x: Num) {
    x.Fin? && x.r > 0.0
  }

  /** Python truthiness of an optional float: `None` and `0.0` are false,
      NaN and the infinities are true. */
  predicate Truthy(x: Num) {
    !(x.Absent? || x == Fin(0.0))
  }

  /** Python `a or b` on optional floats. */
  function Or(a: Num, b: Num): (r: Num)
    ensures Truthy(a) ==> r == a
    ensures !Truthy(a) ==> r == b
  {
    if Truthy(a) then a else b
  }

  /** IEEE addition of two present floats (overflow to infinity is not modelled). */
  function Add(a: Num, b: Num): (r: Num)
    requires !a.Absent? && !b.Absent?
    ensures r.Fin? <==> a.Fin? && b.Fin?
    ensures a.Fin? && b.Fin? ==> r.r == a.r + b.r
    ensures !r.Absent?
  {
    match (a, b)
    case (Fin(x), Fin(y)) => Fin(x + y)
    case (NaN, _) => NaN
    case (_, NaN) => NaN
    case (Inf(s), Inf(t)) => if s == t then Inf(s) else NaN
    case (Inf(s), _) => Inf(s)
    case (_, Inf(t)) => Inf(t)
  }

  /** IEEE division by two of a present float. */
  function Halve(a: Num): (r: Num)
    requires !a.Absent?
    ensures r.Fin? <==> a.Fin?
    ensures a.Fin? ==> r.r * 2.0 == a.r
  {
    match a
    case Fin(x) => Fin(x / 2.0)
    case _ => a
  }

  /** The fields of an `ib_insync` ticker that the helpers read.  `marketPrice`
      and `midpoint` are the values the library's methods of those names
      return; they are computed inside the library and enter as data. */
  datatype Ticker = Ticker(last: Num, bid: Num, ask: Num, close: Num, marketPrice: Num, midpoint: Num)
}

=== FILE: results.dfy ===
/** Optional values, results and the failures the trading helpers raise.

    The Python code signals failure by raising `RuntimeError`, `ValueError`,
    `AssertionError` or `ZeroDivisionError`; here every such exit is an `Err`
    carrying the reason, and `None` results stay `None`.
 */
module Results {

  datatype Option<+T> = None | Some(value: T)

  /** Every way a modelled operation can fail. */
  datatype Error =
    | PriceUnavailable        // no usable quote field (underlying, entry mark or option premium)
    | NoFutureExpirations     // every listed expiry lies before today
    | MalformedDate           // an expiry string that is not an ISO calendar date
    | EmptyStrikes            // `min` over an empty strike ladder
    | UnderlyingNotFound      // contract-details query returned nothing
    | NoOptionParams          // option-chain query returned nothing
    | EmptyChain              // chain without expirations or strikes
    | ExpiryNotListed         // an explicitly requested expiry is not in the chain
    | InvalidOrderType        // order type other than MKT / LMT
    | MissingQtyAndBudget     // neither a quantity nor a positive budget
    | DivisionByZero          // floor division by a zero price or increment
    | BelowMinPremium         // option limit below the minimum premium
    | MissingLimitPrice       // LMT bracket entry without a limit price
    | QualificationFailed     // the broker did not qualify exactly one contract
    | ConnectFailed           // every client id was refused
    | InvalidTime             // hour or minute out of range

  datatype Result<+T> = Ok(value: T) | Err(error: Error)
}

=== FILE: schedule.dfy ===
/** The calendar rules of src/schedule.py behind the monthly VIX jobs: the
    third Wednesday of a month (the assumed settlement day), the three
    Monday-to-Friday days after it, and the roll from one month to the next.

    Days are day numbers (see `Calendar`); the time zone only fixes which
    calendar day a moment falls on and is not modelled.  Holidays are not
    trading-day exceptions here, as in the source.
 */
module Schedule {
  import opened Results
  import opened Calendar

  /** A year and month `datetime` accepts. */
  predicate ValidMonth(y: int, m: int) {
    MinYear <= y <= MaxYear && 1 <= m <= 12
  }

  // ---------------------------------------------------------------- third Wednesday

  /** `third_wednesday`: the first Wednesday of the month moved on two weeks;
      `datetime` rejects a year or month out of range. */
  function ThirdWednesday(y: int, m: int): (r: Result<Date>)
    ensures r.Err? <==> !ValidMonth(y, m)
    ensures r.Err? ==> r.error == MalformedDate
    ensures r.Ok? ==> Valid(r.value) && r.value.year == y && r.value.month == m
                      && 15 <= r.value.day <= 21
                      && Weekday(DayNumber(r.value)) == Wednesday
  {
    if !ValidMonth(y, m) then Err(MalformedDate)
    else
      var first := DayNumber(Date(y, m, 1));
      var offset := (Wednesday - Weekday(first)) % 7;
      WeekdayAdvance(first, Wednesday);
      var d := Date(y, m, 1 + offset + 14);
      DayNumberInMonth(y, m, 1 + offset + 14);
      WeekdayShift(first + offset, 2);
      Ok(d)
  }

  /** It is the third Wednesday: the month holds exactly two Wednesdays
      before it, one and two weeks earlier. */
  lemma ThirdWednesdayIsThird(y: int, m: int, w: Date, dom: int)
    requires ThirdWednesday(y, m) == Ok(w)
    requires 1 <= dom < w.day
    ensures Weekday(DayNumber(Date(y, m, dom))) == Wednesday <==> dom == w.day - 7 || dom == w.day - 14
  {
    DayNumberInMonth(y, m, dom);
    DayNumberInMonth(y, m, w.day);
    var n := DayNumber(Date(y, m, 1));
    // Both days share the weekday exactly when they are a whole number of
    // weeks apart, and only 7 and 14 fit between day 1 and day 21.
    SameWeekday(n + dom - 1, n + w.day - 1);
    WholeWeeksBelow21(w.day - dom);
  }

  lemma WholeWeeksBelow21(k: int)
    requires 1 <= k <= 20
    ensures k % 7 == 0 <==> k == 7 || k == 14
  {
    DivModUnique(k, 7, k / 7, k % 7);
  }

  /** October 2024: the first falls on a Tuesday, so the third Wednesday is
      the 16th. */
  lemma ThirdWednesdayScenario()
    ensures ThirdWednesday(2024, 10) == Ok(Date(2024, 10, 16))
    ensures ThirdWednesday(2024, 13).Err?
  {
    assert DayNumber(Date(2024, 10, 1)) == 739159;
  }

  // ---------------------------------------------------------------- trading days

  /** A Monday-to-Friday day. */
  predicate IsWeekday(n: int) {
    Weekday(n) < 5
  }

  /** The first Monday-to-Friday day after day `n`: the reference the loop
      below is measured against. */
  function NextWeekday(n: int): (r: int)
    ensures n < r <= n + 3 && IsWeekday(r)
    ensures forall k :: n < k < r ==> !IsWeekday(k)
  {
    if IsWeekday(n + 1) then n + 1
    else if IsWeekday(n + 2) then n + 2
    else n + 3
  }

  /** Any weekday after `n` with only weekend days before it is `NextWeekday(n)`. */
  lemma LeastWeekdayAfter(n: int, x: int)
    requires n < x && IsWeekday(x)
    requires forall k :: n < k < x ==> !IsWeekday(k)
    ensures x == NextWeekday(n)
  {
    var w := NextWeekday(n);
    assert !(w < x);
  }

  /** Days to wait from `cur` to the next weekday (0 on a weekday). */
  function WeekendLeft(cur: int): nat {
    if IsWeekday(cur) then 0 else 7 - Weekday(cur)
  }

  /** `next_three_trading_days`: walking day by day from the day after `d`,
      keeping Monday-to-Friday days until three are collected. */
  method NextThreeTradingDays(d: int) returns (days: seq<int>)
    ensures |days| == 3
    ensures forall i :: 0 <= i < 3 ==> d < days[i] && IsWeekday(days[i])
    ensures days[0] < days[1] < days[2]
    ensures forall k :: d < k <= days[2] && IsWeekday(k) ==> k in days
    ensures days == [NextWeekday(d), NextWeekday(NextWeekday(d)), NextWeekday(NextWeekday(NextWeekday(d)))]
  {
    days := [];
    var cur := d + 1;
    while |days| < 3
      invariant |days| <= 3 && d < cur
      invariant forall i :: 0 <= i < |days| ==> d < days[i] < cur && IsWeekday(days[i])
      invariant forall i, j :: 0 <= i < j < |days| ==> days[i] < days[j]
      invariant forall k :: d < k < cur && IsWeekday(k) ==> k in days
      decreases 3 - |days|, WeekendLeft(cur)
    {
      WeekdayNext(cur);
      if IsWeekday(cur) {
        days := days + [cur];
      }
      cur := cur + 1;
    }
    FirstThreeWeekdays(d, days);
  }

  /** Three increasing weekdays after `d` that skip no weekday are the first
      three weekdays after `d`. */
  lemma FirstThreeWeekdays(d: int, days: seq<int>)
    requires |days| == 3
    requires forall i :: 0 <= i < 3 ==> d < days[i] && IsWeekday(days[i])
    requires days[0] < days[1] < days[2]
    requires forall k :: d < k <= days[2] && IsWeekday(k) ==> k in days
    ensures days == [NextWeekday(d), NextWeekday(NextWeekday(d)), NextWeekday(NextWeekday(NextWeekday(d)))]
  {
    LeastWeekdayAfter(d, days[0]);
    LeastWeekdayAfter(days[0], days[1]);
    LeastWeekdayAfter(days[1], days[2]);
  }

  /** From a Wednesday the next three trading days are Thursday, Friday and
      the Monday after. */
  lemma TradingDaysFromWednesday(d: int)
    requires Weekday(d) == Wednesday
    ensures NextWeekday(d) == d + 1
    ensures NextWeekday(d + 1) == d + 2
    ensures NextWeekday(d + 2) == d + 5
  {
    WeekdayNext(d);
    WeekdayNext(d + 1);
    WeekdayNext(d + 2);
    WeekdayNext(d + 3);
    WeekdayNext(d + 4);
  }

  // ---------------------------------------------------------------- months

  /** The month after `(y, m)`: January of the next year after December. */
  function NextMonth(y: int, m: int): (r: (int, int))
    requires 1 <= m <= 12
    ensures 1 <= r.1 <= 12
    ensures m == 12 ==> r == (y + 1, 1)
    ensures m < 12 ==> r == (y, m + 1)
  {
    if m == 12 then (y + 1, 1) else (y, m + 1)
  }

  /** The next month starts the day after this month's last day. */
  lemma {:induction false} NextMonthFollows(y: int, m: int)
    requires ValidMonth(y, m) && ValidMonth(NextMonth(y, m).0, NextMonth(y, m).1)
    ensures DayNumber(Date(NextMonth(y, m).0, NextMonth(y, m).1, 1))
            == DayNumber(Date(y, m, DaysInMonth(y, m))) + 1
  {
    if m == 12 {
      YearLength(y);
    }
  }

  // ---------------------------------------------------------------- monthly VIX runs

  /** A run moment: a day number and a New York wall-clock time. */
  datatype RunTime = RunTime(day: int, hour: int, minute: int)

  const RunHour := 9
  const RunMinute := 35

  /** The runs after a settlement Wednesday `sq`: 09:35 on the Thursday, the
      Friday and the following Monday. */
  function RunsAfter(sq: int): seq<RunTime> {
    [RunTime(sq + 1, RunHour, RunMinute), RunTime(sq + 2, RunHour, RunMinute), RunTime(sq + 5, RunHour, RunMinute)]
  }

  /** The month's three runs: 09:35 on each of the three trading days after
      the third Wednesday. */
  method MonthRuns(y: int, m: int) returns (r: Result<seq<RunTime>>)
    ensures r.Err? <==> !ValidMonth(y, m)
    ensures r.Err? ==> r.error == MalformedDate
    ensures r.Ok? ==> r.value == RunsAfter(DayNumber(ThirdWednesday(y, m).value))
    ensures r.Ok? ==> forall i :: 0 <= i < |r.value| ==> IsWeekday(r.value[i].day)
  {
    var sq := ThirdWednesday(y, m);
    if sq.Err? {
      return Err(sq.error);
    }
    var n := DayNumber(sq.value);
    var days := NextThreeTradingDays(n);
    TradingDaysFromWednesday(n);
    r := Ok([RunTime(days[0], RunHour, RunMinute), RunTime(days[1], RunHour, RunMinute),
             RunTime(days[2], RunHour, RunMinute)]);
  }

  /** `add_monthly_vix_jobs`: the runs for the current month and then for
      the next. */
  method MonthlyVixRuns(y: int, m: int) returns (r: Result<seq<RunTime>>)
    requires 1 <= m <= 12
    ensures r.Err? <==> !ValidMonth(y, m) || !ValidMonth(NextMonth(y, m).0, NextMonth(y, m).1)
    ensures r.Ok? ==>
              r.value == RunsAfter(DayNumber(ThirdWednesday(y, m).value))
                         + RunsAfter(DayNumber(ThirdWednesday(NextMonth(y, m).0, NextMonth(y, m).1).value))
  {
    var first := MonthRuns(y, m);
    if first.Err? {
      return first;
    }
    var (ny, nm) := NextMonth(y, m);
    var second := MonthRuns(ny, nm);
    if second.Err? {
      return second;
    }
    r := Ok(first.value + second.value);
  }
}

=== FILE: selection.dfy ===
/** Generic selection over sequences, with the exact tie rules of the Python
    built-ins the trading code relies on: `next(x for x in xs if p(x))`,
    `min(xs, key=k)` / `max(xs, key=k)` (first extreme element wins), list
    comprehensions with a filter, and `sorted` on floats.
 */
module Selection {
  import opened Results

  /** Index of the first element satisfying `p`, as `next(...)` finds it. */
  function FirstWhere<T>(xs: seq<T>, p: T -> bool): (r: Option<nat>)
    ensures r.Some? ==> r.value < |xs| && p(xs[r.value])
    ensures r.Some? ==> forall j :: 0 <= j < r.value ==> !p(xs[j])
    ensures r.None? <==> forall j :: 0 <= j < |xs| ==> !p(xs[j])
    decreases |xs|
  {
    if |xs| == 0 then None
    else if p(xs[0]) then Some(0)
    else
      match FirstWhere(xs[1..], p)
      case None => None
      case Some(i) => Some(i + 1)
  }

  /** Index of the element `min(xs, key=key)` returns: a minimal one, and the
      first of several equal minima. */
  function ArgMin<T>(xs: seq<T>, key: T -> real): (i: nat)
    requires |xs| > 0
    ensures i < |xs|
    ensures forall j :: 0 <= j < |xs| ==> key(xs[i]) <= key(xs[j])
    ensures forall j :: 0 <= j < i ==> key(xs[i]) < key(xs[j])
    decreases |xs|
  {
    if |xs| == 1 then 0
    else
      var k := ArgMin(xs[1..], key) + 1;
      if key(xs[0]) <= key(xs[k]) then 0 else k
  }

  /** Index of the element `max(xs, key=key)` returns: a maximal one, and the
      first of several equal maxima. */
  function ArgMax<T>(xs: seq<T>, key: T -> int): (i: nat)
    requires |xs| > 0
    ensures i < |xs|
    ensures forall j :: 0 <= j < |xs| ==> key(xs[j]) <= key(xs[i])
    ensures forall j :: 0 <= j < i ==> key(xs[j]) < key(xs[i])
    decreases |xs|
  {
    if |xs| == 1 then 0
    else
      var k := ArgMax(xs[1..], key) + 1;
      if key(xs[0]) >= key(xs[k]) then 0 else k
  }

  /** `[x for x in xs if p(x)]`. */
  function Filter<T(!new)>(xs: seq<T>, p: T -> bool): (r: seq<T>)
    ensures |r| <= |xs|
    ensures forall x :: x in r <==> x in xs && p(x)
    decreases |xs|
  {
    if |xs| == 0 then []
    else if p(xs[0]) then [xs[0]] + Filter(xs[1..], p)
    else Filter(xs[1..], p)
  }

  ghost predicate Sorted(xs: seq<real>) {
    forall i, j :: 0 <= i < j < |xs| ==> xs[i] <= xs[j]
  }

  /** Inserts `x` into an ascending sequence, keeping it ascending. */
  function Insert(x: real, xs: seq<real>): (r: seq<real>)
    requires Sorted(xs)
    ensures Sorted(r)
    ensures multiset(r) == multiset(xs) + multiset{x}
    ensures |r| == |xs| + 1
    ensures r[0] == x || (|xs| > 0 && r[0] == xs[0])
    decreases |xs|
  {
    if |xs| == 0 then [x]
    else if x <= xs[0] then [x] + xs
    else
      var rest := Insert(x, xs[1..]);
      assert xs == [xs[0]] + xs[1..];
      assert forall k :: 0 <= k < |rest| ==> rest[0] <= rest[k];
      assert xs[0] <= rest[0];
      ConsSorted(xs[0], rest);
      [xs[0]] + rest
  }

  lemma ConsSorted(h: real, xs: seq<real>)
    requires Sorted(xs)
    requires forall k :: 0 <= k < |xs| ==> h <= xs[k]
    ensures Sorted([h] + xs)
  {
  }

  /** `sorted(xs)` for finite floats: an ascending permutation of `xs`. */
  function Sort(xs: seq<real>): (r: seq<real>)
    ensures Sorted(r)
    ensures multiset(r) == multiset(xs)
    ensures |r| == |xs|
    decreases |xs|
  {
    if |xs| == 0 then []
    else
      assert xs == [xs[0]] + xs[1..];
      Insert(xs[0], Sort(xs[1..]))
  }

  /** Elements of a permutation are the elements of the original. */
  lemma SortSameElements(xs: seq<real>)
    ensures forall x :: x in Sort(xs) <==> x in xs
  {
    var r := Sort(xs);
    forall x ensures x in r <==> x in xs {
      assert x in r <==> x in multiset(r);
      assert x in xs <==> x in multiset(xs);
    }
  }
}

=== FILE: sizing.dfy ===
/** Position sizing by floor division, as the trading scripts do it:
    `int(max(1, budget // price))`.  Python's `//` on floats is modelled as
    the floor of the exact quotient.
 */
module Sizing {

  /** `a // b` for a non-zero divisor. */
  function FloorDiv(a: real, b: real): int
    requires b != 0.0
  {
    (a / b).Floor
  }

  /** The floor quotient is the largest whole count of `b` that fits in `a`. */
  lemma FloorDivBounds(a: real, b: real)
    requires b > 0.0
    ensures FloorDiv(a, b) as real * b <= a
    ensures a < (FloorDiv(a, b) + 1) as real * b
  {
    var q := a / b;
    var f := q.Floor;
    assert f as real <= q < f as real + 1.0;
    assert q * b == a;
    MulMono(f as real, q, b);
    assert (f + 1) as real == f as real + 1.0;
    MulStrict(q, (f + 1) as real, b);
    assert a < (f + 1) as real * b;
    assert f == FloorDiv(a, b);
  }

  /** At least `n` whole units fit exactly when `n` units cost no more than `a`. */
  lemma FloorDivAtLeast(a: real, b: real, n: int)
    requires b > 0.0
    ensures FloorDiv(a, b) >= n <==> n as real * b <= a
  {
    var f := FloorDiv(a, b);
    FloorDivBounds(a, b);
    if f >= n {
      MulMono(n as real, f as real, b);
    } else {
      assert (f + 1) as real <= n as real;
      MulMono((f + 1) as real, n as real, b);
      assert a < (f + 1) as real * b <= n as real * b;
    }
  }

  lemma MulMono(x: real, y: real, b: real)
    requires x <= y && b > 0.0
    ensures x * b <= y * b
  {
  }

  lemma MulStrict(x: real, y: real, b: real)
    requires x < y && b > 0.0
    ensures x * b < y * b
  {
  }

  /** `max(1, budget // price)`: always at least one unit. */
  function AtLeastOne(budget: real, price: real): (n: int)
    requires price != 0.0
    ensures n >= 1
    ensures n == 1 || n == FloorDiv(budget, price)
    ensures FloorDiv(budget, price) >= 1 ==> n == FloorDiv(budget, price)
  {
    if FloorDiv(budget, price) >= 1 then FloorDiv(budget, price) else 1
  }

  /** With a positive price and a budget of at least one unit, the count is
      the largest that the budget pays for. */
  lemma AtLeastOneFitsBudget(budget: real, price: real)
    requires price > 0.0 && budget >= price
    ensures AtLeastOne(budget, price) as real * price <= budget
    ensures budget < (AtLeastOne(budget, price) + 1) as real * price
  {
    FloorDivBounds(budget, price);
    FloorDivAtLeast(budget, price, 1);
  }
}

=== FILE: text.dfy ===
/** The string operations the trading code applies to order types, dates and
    expiry codes: ASCII case mapping (`str.upper`, `str.lower`), zero-padded
    decimal digits (`%04d`, `%02d`) and their parsing, `str.replace("-", "")`,
    and Python's lexicographic string order.
 */
module Text {

  // ---------------------------------------------------------------- case

  function UpperChar(c: char): char {
    if 'a' <= c <= 'z' then (c as int - 32) as char else c
  }

  function LowerChar(c: char): char {
    if 'A' <= c <= 'Z' then (c as int + 32) as char else c
  }

  /** `s.upper()` on ASCII text. */
  function Upper(s: string): (r: string)
    ensures |r| == |s|
  {
    seq(|s|, i requires 0 <= i < |s| => UpperChar(s[i]))
  }

  /** `s.lower()` on ASCII text. */
  function Lower(s: string): (r: string)
    ensures |r| == |s|
  {
    seq(|s|, i requires 0 <= i < |s| => LowerChar(s[i]))
  }

  predicate IsUpperWord(w: string) {
    forall i :: 0 <= i < |w| ==> 'A' <= w[i] <= 'Z'
  }

  predicate IsLowerWord(w: string) {
    forall i :: 0 <= i < |w| ==> 'a' <= w[i] <= 'z'
  }

  /** `s.upper() == w` for an upper-case keyword `w` holds exactly for the
      spellings of `w` in any mix of cases. */
  lemma UpperMatchesIff(s: string, w: string)
    requires IsUpperWord(w)
    ensures Upper(s) == w <==>
              |s| == |w| && forall i :: 0 <= i < |s| ==> s[i] == w[i] || s[i] == LowerChar(w[i])
  {
    if |s| == |w| && forall i :: 0 <= i < |s| ==> s[i] == w[i] || s[i] == LowerChar(w[i]) {
      forall i | 0 <= i < |s| ensures Upper(s)[i] == w[i] {
        assert UpperChar(s[i]) == w[i];
      }
    }
    if Upper(s) == w {
      forall i | 0 <= i < |s| ensures s[i] == w[i] || s[i] == LowerChar(w[i]) {
        assert UpperChar(s[i]) == w[i];
      }
    }
  }

  /** `s.lower() == w` for a lower-case keyword `w` holds exactly for the
      spellings of `w` in any mix of cases. */
  lemma LowerMatchesIff(s: string, w: string)
    requires IsLowerWord(w)
    ensures Lower(s) == w <==>
              |s| == |w| && forall i :: 0 <= i < |s| ==> s[i] == w[i] || s[i] == UpperChar(w[i])
  {
    if |s| == |w| && forall i :: 0 <= i < |s| ==> s[i] == w[i] || s[i] == UpperChar(w[i]) {
      forall i | 0 <= i < |s| ensures Lower(s)[i] == w[i] {
        assert LowerChar(s[i]) == w[i];
      }
    }
    if Lower(s) == w {
      forall i | 0 <= i < |s| ensures s[i] == w[i] || s[i] == UpperChar(w[i]) {
        assert LowerChar(s[i]) == w[i];
      }
    }
  }

  // ---------------------------------------------------------------- digits

  function Pow10(n: nat): (r: nat)
    ensures r >= 1
  {
    if n == 0 then 1 else 10 * Pow10(n - 1)
  }

  predicate IsDigit(c: char) {
    '0' <= c <= '9'
  }

  predicate AllDigits(s: string) {
    forall i :: 0 <= i < |s| ==> IsDigit(s[i])
  }

  function DigitChar(d: int): (c: char)
    requires 0 <= d < 10
    ensures IsDigit(c)
  {
    ('0' as int + d) as char
  }

  function DigitValue(c: char): (d: int)
    requires IsDigit(c)
    ensures 0 <= d < 10
  {
    c as int - '0' as int
  }

  /** `"%0*d" % (width, n)`: the last `width` decimal digits of `n`, zero padded. */
  function Pad(n: nat, width: nat): (r: string)
    ensures |r| == width
    ensures AllDigits(r)
  {
    if width == 0 then "" else Pad(n / 10, width - 1) + [DigitChar(n % 10)]
  }

  /** The value of a string of decimal digits. */
  function ParseDigits(s: string): (n: nat)
    requires AllDigits(s)
    ensures n < Pow10(|s|)
  {
    if |s| == 0 then 0 else ParseDigits(s[..|s| - 1]) * 10 + DigitValue(s[|s| - 1])
  }

  /** Parsing a padded number gives the number back when it fits the width. */
  lemma {:induction false} ParsePad(n: nat, width: nat)
    requires n < Pow10(width)
    ensures ParseDigits(Pad(n, width)) == n
  {
    if width > 0 {
      var p := Pad(n, width);
      assert p[..|p| - 1] == Pad(n / 10, width - 1);
      ParsePad(n / 10, width - 1);
      assert DigitValue(DigitChar(n % 10)) == n % 10;
    }
  }

  /** Padding a parsed digit string to its own width gives the string back. */
  lemma {:induction false} PadParse(s: string)
    requires AllDigits(s)
    ensures Pad(ParseDigits(s), |s|) == s
  {
    if |s| > 0 {
      var init := s[..|s| - 1];
      var v := DigitValue(s[|s| - 1]);
      var n := ParseDigits(s);
      assert n == ParseDigits(init) * 10 + v;
      assert n / 10 == ParseDigits(init);
      assert n % 10 == v;
      PadParse(init);
      assert DigitChar(v) == s[|s| - 1];
      assert s == init + [s[|s| - 1]];
    }
  }

  // ---------------------------------------------------------------- dashes

  /** `s.replace("-", "")`. */
  function StripDashes(s: string): (r: string)
    ensures '-' !in r
    ensures |r| <= |s|
    ensures forall c :: c in r <==> c in s && c != '-'
  {
    if |s| == 0 then ""
    else if s[0] == '-' then StripDashes(s[1..])
    else [s[0]] + StripDashes(s[1..])
  }

  lemma {:induction false} StripDashesAppend(a: string, b: string)
    ensures StripDashes(a + b) == StripDashes(a) + StripDashes(b)
    decreases |a|
  {
    if |a| > 0 {
      assert (a + b)[0] == a[0];
      assert (a + b)[1..] == a[1..] + b;
      StripDashesAppend(a[1..], b);
      if a[0] != '-' {
        calc {
          StripDashes(a + b);
          [a[0]] + StripDashes(a[1..] + b);
          [a[0]] + (StripDashes(a[1..]) + StripDashes(b));
          ([a[0]] + StripDashes(a[1..])) + StripDashes(b);
        }
      }
    } else {
      assert a + b == b;
    }
  }

  /** A string without dashes is left unchanged. */
  lemma {:induction false} StripDashesNoDash(s: string)
    requires '-' !in s
    ensures StripDashes(s) == s
  {
    if |s| > 0 {
      assert s[1..] == s[1..];
      assert '-' !in s[1..] by {
        forall i | 0 <= i < |s[1..]| ensures s[1..][i] != '-' {
          assert s[1..][i] == s[i + 1];
        }
      }
      StripDashesNoDash(s[1..]);
    }
  }

  /** Stripping dashes is idempotent. */
  lemma StripDashesIdempotent(s: string)
    ensures StripDashes(StripDashes(s)) == StripDashes(s)
  {
    StripDashesNoDash(StripDashes(s));
  }

  // ---------------------------------------------------------------- order

  /** Python's `a <= b` on strings: code-point lexicographic order. */
  predicate LexLe(a: string, b: string)
    decreases |a|
  {
    |a| == 0 || (|b| > 0 && (a[0] < b[0] || (a[0] == b[0] && LexLe(a[1..], b[1..]))))
  }

  lemma {:induction false} LexLeTotal(a: string, b: string)
    ensures LexLe(a, b) || LexLe(b, a)
    decreases |a|
  {
    if |a| > 0 && |b| > 0 && a[0] == b[0] {
      LexLeTotal(a[1..], b[1..]);
    }
  }

  lemma {:induction false} LexLeTrans(a: string, b: string, c: string)
    requires LexLe(a, b) && LexLe(b, c)
    ensures LexLe(a, c)
    decreases |a|
  {
    if |a| > 0 && a[0] == b[0] && b[0] == c[0] {
      LexLeTrans(a[1..], b[1..], c[1..]);
    }
  }

  /** `sorted(xs)[0]`: the lexicographically least string of a non-empty list. */
  function MinString(xs: seq<string>): (r: string)
    requires |xs| > 0
    ensures r in xs
    ensures forall i :: 0 <= i < |xs| ==> LexLe(r, xs[i])
    decreases |xs|
  {
    if |xs| == 1 then
      assert LexLe(xs[0], xs[0]) by { LexLeReflexive(xs[0]); }
      xs[0]
    else
      var m := MinString(xs[1..]);
      LexLeTotal(xs[0], m);
      if LexLe(xs[0], m) then
        assert LexLe(xs[0], xs[0]) by { LexLeReflexive(xs[0]); }
        assert forall i :: 1 <= i < |xs| ==> LexLe(xs[0], xs[i]) by {
          forall i | 1 <= i < |xs| ensures LexLe(xs[0], xs[i]) {
            assert xs[i] == xs[1..][i - 1];
            LexLeTrans(xs[0], m, xs[i]);
          }
        }
        xs[0]
      else
        assert forall i :: 1 <= i < |xs| ==> LexLe(m, xs[i]) by {
          forall i | 1 <= i < |xs| ensures LexLe(m, xs[i]) {
            assert xs[i] == xs[1..][i - 1];
          }
        }
        m
  }

  lemma {:induction false} LexLeReflexive(a: string)
    ensures LexLe(a, a)
    decreases |a|
  {
    if |a| > 0 {
      LexLeReflexive(a[1..]);
    }
  }

  /** Behind a common-length prefix, the order is decided by the prefixes
      when they differ and by the rest when they are equal. */
  lemma {:induction false} LexLeAppend(a1: string, a2: string, b1: string, b2: string)
    requires |a1| == |b1|
    ensures LexLe(a1 + a2, b1 + b2) <==> if a1 == b1 then LexLe(a2, b2) else LexLe(a1, b1)
    decreases |a1|
  {
    if |a1| == 0 {
      assert a1 + a2 == a2 && b1 + b2 == b2;
    } else {
      assert (a1 + a2)[0] == a1[0] && (b1 + b2)[0] == b1[0];
      assert (a1 + a2)[1..] == a1[1..] + a2;
      assert (b1 + b2)[1..] == b1[1..] + b2;
      assert a1 == [a1[0]] + a1[1..] && b1 == [b1[0]] + b1[1..];
      LexLeAppend(a1[1..], a2, b1[1..], b2);
    }
  }

  /** The order of two equally long tails from `i` on, split at `j`. */
  lemma LexLeSplit(a: string, b: string, i: int, j: int)
    requires |a| == |b| && 0 <= i <= j <= |a|
    ensures LexLe(a[i..], b[i..]) <==> if a[i..j] == b[i..j] then LexLe(a[j..], b[j..]) else LexLe(a[i..j], b[i..j])
  {
    assert a[i..] == a[i..j] + a[j..] && b[i..] == b[i..j] + b[j..];
    LexLeAppend(a[i..j], a[j..], b[i..j], b[j..]);
  }

  /** Digit strings of one width are equal exactly when their values are. */
  lemma DigitsInjective(a: string, b: string)
    requires |a| == |b| && AllDigits(a) && AllDigits(b)
    ensures a == b <==> ParseDigits(a) == ParseDigits(b)
  {
    PadParse(a);
    PadParse(b);
  }

  /** On zero-padded digit strings of one width, text order is numeric order. */
  lemma {:induction false} LexLeDigits(a: string, b: string)
    requires |a| == |b| && AllDigits(a) && AllDigits(b)
    ensures LexLe(a, b) <==> ParseDigits(a) <= ParseDigits(b)
    decreases |a|
  {
    if |a| > 0 {
      var a0, b0 := a[..|a| - 1], b[..|b| - 1];
      var x, y := a[|a| - 1], b[|b| - 1];
      assert a == a0 + [x] && b == b0 + [y];
      LexLeAppend(a0, [x], b0, [y]);
      assert LexLe([x], [y]) <==> x <= y by {
        assert [x][1..] == [] && [y][1..] == [];
      }
      LexLeDigits(a0, b0);
      DigitsInjective(a0, b0);
      assert ParseDigits(a) == ParseDigits(a0) * 10 + DigitValue(x);
      assert ParseDigits(b) == ParseDigits(b0) * 10 + DigitValue(y);
    }
  }
}

=== FILE: uvix_p_plus.dfy ===
/** The pure rules of src/ib/uvix_p_plus.py: the staged fill of
    last/bid/ask/close from a streaming quote, a snapshot and historical bars;
    the mark used for P&L and the one used for an entry; the limit, size and
    protective stop of a UVIX share purchase; and strike, expiry, limit and
    size of a UVIX put purchase.

    Every broker answer is a parameter: the streaming and snapshot tickers
    (`None` where the request raised), the closes of the historical bars,
    the option chains, whether the option contract qualified, and the order
    ids the broker assigns.  The OCA tag built from a random uuid is a
    parameter too.
 */
module UvixPPlus {
  import opened Results
  import opened Quotes
  import opened Selection
  import opened Text
  import opened Sizing
  import opened Orders
  import opened Options

  // ---------------------------------------------------------------- marks

  /** The four quote fields the helpers fill, as `_num` leaves them. */
  datatype Marks = Marks(last: Num, bid: Num, ask: Num, close: Num)

  const NoMarks := Marks(Absent, Absent, Absent, Absent)

  /** The fields read from one ticker; `last` falls back to `marketPrice()`
      when it is falsy (missing or zero). */
  function TickerMarks(t: Ticker): Marks {
    Marks(Or(t.last, t.marketPrice), t.bid, t.ask, t.close)
  }

  predicate NoneFinite(m: Marks) {
    !IsFinite(m.last) && !IsFinite(m.bid) && !IsFinite(m.ask) && !IsFinite(m.close)
  }

  /** Every field finite in `m` has the same value in `r`. */
  predicate KeepsFinite(m: Marks, r: Marks) {
    && (IsFinite(m.last) ==> r.last == m.last)
    && (IsFinite(m.bid) ==> r.bid == m.bid)
    && (IsFinite(m.ask) ==> r.ask == m.ask)
    && (IsFinite(m.close) ==> r.close == m.close)
  }

  /** Stage 1: the streaming quote, or nothing when the request raised. */
  function Streamed(stream: Option<Ticker>): Marks {
    if stream.Some? then TickerMarks(stream.value) else NoMarks
  }

  /** The snapshot is asked for unless a finite last and a finite bid or ask are known. */
  predicate WantsSnapshot(m: Marks) {
    !(IsFinite(m.last) && (IsFinite(m.bid) || IsFinite(m.ask)))
  }

  function Keep(known: Num, later: Num): Num {
    if IsFinite(known) then known else later
  }

  /** Stage 2: the snapshot fills the fields that are not finite yet. */
  function SnapshotStage(m: Marks, snap: Option<Ticker>): (r: Marks)
    ensures KeepsFinite(m, r)
  {
    if WantsSnapshot(m) && snap.Some? then
      var t := TickerMarks(snap.value);
      Marks(Keep(m.last, t.last), Keep(m.bid, t.bid), Keep(m.ask, t.ask), Keep(m.close, t.close))
    else m
  }

  /** Stage 3: with nothing finite, the close of the last bar becomes the close,
      and the last too when the last is not finite. */
  function HistoryStage(m: Marks, bars: seq<Num>): (r: Marks)
    ensures KeepsFinite(m, r)
  {
    if NoneFinite(m) && |bars| > 0 then
      var c := bars[|bars| - 1];
      m.(close := c, last := Keep(m.last, c))
    else m
  }

  /** `_fetch_mark_prices`: each later source only fills gaps left by the
      earlier ones, and is consulted only when the earlier ones left the
      quote incomplete. */
  function FetchMarkPrices(stream: Option<Ticker>, snap: Option<Ticker>, bars: seq<Num>): (r: Marks)
    ensures KeepsFinite(Streamed(stream), r)
    ensures KeepsFinite(SnapshotStage(Streamed(stream), snap), r)
    ensures !WantsSnapshot(Streamed(stream)) ==> r == Streamed(stream)
    ensures !NoneFinite(SnapshotStage(Streamed(stream), snap)) ==> r == SnapshotStage(Streamed(stream), snap)
    ensures NoneFinite(SnapshotStage(Streamed(stream), snap)) && |bars| > 0 ==>
              r.close == bars[|bars| - 1] && r.last == bars[|bars| - 1]
              && r.bid == SnapshotStage(Streamed(stream), snap).bid
              && r.ask == SnapshotStage(Streamed(stream), snap).ask
    ensures NoneFinite(SnapshotStage(Streamed(stream), snap)) && |bars| == 0 ==>
              r == SnapshotStage(Streamed(stream), snap)
  {
    HistoryStage(SnapshotStage(Streamed(stream), snap), bars)
  }

  /** When the streaming quote already has a last and a bid or ask, neither
      the snapshot nor the bars matter. */
  lemma QuotedStreamSuffices(stream: Option<Ticker>, s1: Option<Ticker>, s2: Option<Ticker>,
                             b1: seq<Num>, b2: seq<Num>)
    requires !WantsSnapshot(Streamed(stream))
    ensures FetchMarkPrices(stream, s1, b1) == FetchMarkPrices(stream, s2, b2)
  {
  }

  /** A snapshot field is used only where the streaming field was not finite. */
  lemma SnapshotFillsGapsOnly(stream: Option<Ticker>, snap: Ticker)
    requires WantsSnapshot(Streamed(stream))
    ensures var m := SnapshotStage(Streamed(stream), Some(snap));
            && (!IsFinite(Streamed(stream).bid) ==> m.bid == snap.bid)
            && (!IsFinite(Streamed(stream).ask) ==> m.ask == snap.ask)
            && (!IsFinite(Streamed(stream).close) ==> m.close == snap.close)
            && (!IsFinite(Streamed(stream).last) ==> m.last == Or(snap.last, snap.marketPrice))
  {
  }

  /** The candidates in the order `get_uvix_p_plus_state` tries them for P&L. */
  function PnlCandidates(m: Marks): seq<Num> {
    [m.last, m.close, m.bid, m.ask]
  }

  /** The candidates in the order `_mark_price_for_entry` tries them. */
  function EntryCandidates(m: Marks): seq<Num> {
    [m.ask, m.last, m.close, m.bid]
  }

  /** The first finite value of a candidate list. */
  function FirstFinite(xs: seq<Num>): (r: Option<real>)
    ensures r.None? <==> forall i :: 0 <= i < |xs| ==> !IsFinite(xs[i])
    ensures r.Some? ==> exists i :: 0 <= i < |xs| && xs[i] == Fin(r.value)
                                   && forall j :: 0 <= j < i ==> !IsFinite(xs[j])
    ensures forall i :: 0 <= i < |xs| && IsFinite(xs[i]) && (forall j :: 0 <= j < i ==> !IsFinite(xs[j])) ==>
              r == Some(xs[i].r)
  {
    match FirstWhere(xs, IsFinite)
    case None => None
    case Some(i) => Some(xs[i].r)
  }

  /** The mark for unrealised P&L: the first finite of last, close, bid, ask. */
  function MarkForPnl(m: Marks): (r: Option<real>)
    ensures IsFinite(m.last) ==> r == Some(m.last.r)
    ensures !IsFinite(m.last) && IsFinite(m.close) ==> r == Some(m.close.r)
    ensures !IsFinite(m.last) && !IsFinite(m.close) && IsFinite(m.bid) ==> r == Some(m.bid.r)
    ensures !IsFinite(m.last) && !IsFinite(m.close) && !IsFinite(m.bid) && IsFinite(m.ask) ==> r == Some(m.ask.r)
    ensures r.None? <==> NoneFinite(m)
  {
    var xs := PnlCandidates(m);
    assert xs[0] == m.last && xs[1] == m.close && xs[2] == m.bid && xs[3] == m.ask;
    FirstFinite(xs)
  }

  /** `_mark_price_for_entry`: the first finite of ask, last, close, bid;
      an error when none is finite.  Only finiteness is checked, so a zero
      or negative mark is accepted. */
  function MarkForEntry(m: Marks): (r: Result<real>)
    ensures IsFinite(m.ask) ==> r == Ok(m.ask.r)
    ensures !IsFinite(m.ask) && IsFinite(m.last) ==> r == Ok(m.last.r)
    ensures !IsFinite(m.ask) && !IsFinite(m.last) && IsFinite(m.close) ==> r == Ok(m.close.r)
    ensures !IsFinite(m.ask) && !IsFinite(m.last) && !IsFinite(m.close) && IsFinite(m.bid) ==> r == Ok(m.bid.r)
    ensures r.Err? <==> NoneFinite(m)
    ensures r.Err? ==> r.error == PriceUnavailable
  {
    var xs := EntryCandidates(m);
    assert xs[0] == m.ask && xs[1] == m.last && xs[2] == m.close && xs[3] == m.bid;
    match FirstFinite(xs)
    case None => Err(PriceUnavailable)
    case Some(x) => Ok(x)
  }

  /** The two marks try the same four fields in different orders: an entry
      mark exists exactly when a P&L mark does, and they agree whenever only
      one field is finite. */
  lemma EntryAndPnlMarksAgree(m: Marks)
    ensures MarkForEntry(m).Ok? <==> MarkForPnl(m).Some?
    ensures MarkForEntry(m).Ok? && |set x | x in PnlCandidates(m) && IsFinite(x)| == 1 ==>
              MarkForEntry(m).value == MarkForPnl(m).value
  {
    if MarkForEntry(m).Ok? && |set x | x in PnlCandidates(m) && IsFinite(x)| == 1 {
      var s := set x | x in PnlCandidates(m) && IsFinite(x);
      var e := MarkForEntry(m).value;
      var p := MarkForPnl(m).value;
      assert Fin(e) in s;
      assert Fin(p) in s;
      SingletonSet(s, Fin(e), Fin(p));
    }
  }

  lemma SingletonSet<T>(s: set<T>, a: T, b: T)
    requires |s| == 1 && a in s && b in s
    ensures a == b
  {
    SubsetCard({a, b}, s);
    assert a != b ==> |{a, b}| == 2;
  }

  lemma SubsetCard<T>(a: set<T>, b: set<T>)
    requires a <= b
    ensures |a| <= |b|
  {
    if a != {} {
      var x :| x in a;
      SubsetCard(a - {x}, b - {x});
    }
  }

  /** `_calc_unrealized`: nothing for a flat position or a missing price,
      otherwise `(mark - avg) * qty` with a signed quantity. */
  function CalcUnrealized(qty: real, avgCost: Option<real>, mark: Option<real>): (r: Option<real>)
    ensures r.None? <==> qty == 0.0 || avgCost.None? || mark.None?
    ensures r.Some? ==> r.value == (mark.value - avgCost.value) * qty
  {
    if qty == 0.0 || avgCost.None? || mark.None? then None
    else Some((mark.value - avgCost.value) * qty)
  }

  /** A long position gains and a short one loses when the mark is above the
      average cost, and the other way round below it. */
  lemma UnrealizedSign(qty: real, avgCost: real, mark: real)
    requires qty != 0.0 && mark != avgCost
    ensures var u := CalcUnrealized(qty, Some(avgCost), Some(mark)).value;
            (u > 0.0 <==> (qty > 0.0 <==> mark > avgCost))
  {
    var d := mark - avgCost;
    var u := d * qty;
    if d > 0.0 && qty > 0.0 { PositiveProduct(d, qty); }
    if d < 0.0 && qty < 0.0 { PositiveProduct(-d, -qty); assert u == (-d) * (-qty); }
    if d > 0.0 && qty < 0.0 { PositiveProduct(d, -qty); assert u == -(d * (-qty)); }
    if d < 0.0 && qty > 0.0 { PositiveProduct(-d, qty); assert u == -((-d) * qty); }
  }

  /** The P&L reported with the position: the P&L mark applied to it. */
  function PositionPnl(qty: real, avgCost: real, m: Marks): (r: Option<real>)
    ensures r.Some? <==> qty != 0.0 && !NoneFinite(m)
    ensures r.Some? ==> r == CalcUnrealized(qty, Some(avgCost), MarkForPnl(m))
  {
    CalcUnrealized(qty, Some(avgCost), MarkForPnl(m))
  }

  // ---------------------------------------------------------------- prices

  /** `round(round(x / inc) * inc, 2)`; Python's `round` to an integer rounds
      half to even, and a zero increment raises. */
  function RoundToIncrement(x: real, inc: real, round2: Rounding): (r: Result<real>)
    ensures r.Err? <==> inc == 0.0
    ensures r.Err? ==> r.error == DivisionByZero
    ensures r.Ok? ==> exists k: int :: RoundedMultiple(r.value, k, x, inc, round2)
  {
    if inc == 0.0 then Err(DivisionByZero)
    else
      var k := RoundHalfEven(x / inc);
      NearestMultiple(x, inc, k);
      assert RoundedMultiple(round2(k as real * inc), k, x, inc, round2);
      Ok(round2(k as real * inc))
  }

  /** `y` is the rounded `k`-th multiple of `inc`, and that multiple is
      within half an increment of `x`. */
  predicate RoundedMultiple(y: real, k: int, x: real, inc: real, round2: Rounding) {
    y == round2(k as real * inc) && Abs(x - k as real * inc) <= Abs(inc) / 2.0
  }

  /** `round(x)`: the nearest integer, the even one of two equally near. */
  function RoundHalfEven(x: real): (n: int)
    ensures Abs(x - n as real) <= 0.5
    ensures Abs(x - n as real) == 0.5 ==> n % 2 == 0
  {
    var f := x.Floor;
    var d := x - f as real;
    if d < 0.5 then f
    else if d > 0.5 then f + 1
    else if f % 2 == 0 then f else f + 1
  }

  /** A value within half a step of `x / inc`, scaled by `inc`, is within
      half an increment of `x`. */
  lemma NearestMultiple(x: real, inc: real, k: int)
    requires inc != 0.0 && Abs(x / inc - k as real) <= 0.5
    ensures Abs(x - k as real * inc) <= Abs(inc) / 2.0
  {
    var e := x / inc - k as real;
    assert x - k as real * inc == e * inc;
    AbsProduct(e, inc);
    MulBound(Abs(e), 0.5, Abs(inc));
  }

  lemma AbsProduct(a: real, b: real)
    ensures Abs(a * b) == Abs(a) * Abs(b)
  {
    if a < 0.0 && b < 0.0 { assert a * b == (-a) * (-b); }
    if a < 0.0 && b >= 0.0 { assert a * b == -((-a) * b); }
    if a >= 0.0 && b < 0.0 { assert a * b == -(a * (-b)); }
  }

  lemma MulBound(a: real, c: real, b: real)
    requires 0.0 <= a <= c && b >= 0.0
    ensures a * b <= c * b
  {
  }

  /** The limit before rounding: above the mark for a BUY (any spelling),
      below it for every other side. */
  function BpsLevel(mark: real, side: string, bps: int): real {
    if Upper(side) == "BUY" then mark * (1.0 + bps as real / 10000.0)
    else mark * (1.0 - bps as real / 10000.0)
  }

  lemma UpperBuy()
    ensures Upper("BUY") == "BUY"
  {
    assert IsUpperWord("BUY");
    UpperMatchesIff("BUY", "BUY");
  }

  /** `_calc_limit_from_mark`. */
  function CalcLimitFromMark(mark: real, side: string, bps: int, round2: Rounding): real {
    round2(BpsLevel(mark, side, bps))
  }

  /** For a positive mark and a non-negative spread, a BUY limit is not below
      the mark and any other side's is not above it; the BUY rule is the one
      `decide_lmt_stop_take` uses. */
  lemma BpsLevelDirection(mark: real, side: string, bps: int)
    requires mark > 0.0 && bps >= 0
    ensures Upper(side) == "BUY" ==> BpsLevel(mark, side, bps) >= mark
    ensures Upper(side) != "BUY" ==> BpsLevel(mark, side, bps) <= mark
    ensures Upper(side) == "BUY" ==> BpsLevel(mark, side, bps) == LimitLevel(mark, bps)
  {
    var f := bps as real / 10000.0;
    assert mark * (1.0 + f) == mark + mark * f;
    assert mark * (1.0 - f) == mark - mark * f;
    MulBound(0.0, mark, f);
  }

  /** "buy", "Buy" and "BUY" all select the upward limit. */
  lemma BuySpellings(side: string)
    ensures Upper(side) == "BUY" <==>
              |side| == 3 && (side[0] == 'B' || side[0] == 'b') && (side[1] == 'U' || side[1] == 'u')
              && (side[2] == 'Y' || side[2] == 'y')
  {
    UpperMatchesIff(side, "BUY");
  }

  // ---------------------------------------------------------------- share entry

  /** The arguments of `place_uvix_p_plus_order` after the environment
      defaults are applied. */
  datatype EntryRequest = EntryRequest(
    qty: Option<int>,
    budget: real,
    orderType: string,
    limitPrice: Option<real>,
    limitFromMarkPct: Option<real>,
    limitSlippageBps: int,
    stopLossPct: Option<real>,
    tif: string,
    account: Option<string>,
    dryRun: bool)

  /** What the share entry decided and what it handed to the broker. */
  datatype EntryPlan = EntryPlan(
    mark: real,
    qty: int,
    limit: Option<real>,
    stop: Option<real>,
    parent: Order,
    children: seq<Order>,
    placed: seq<Placed>)

  /** `MarketOrder`, `LimitOrder` and `StopOrder` with `tif` and `account`. */
  function MarketOrder(action: string, qty: int, tif: string, account: Option<string>): Order {
    NewOrder(action, "MKT", qty as real).(tif := tif, account := account)
  }

  function LimitOrder(action: string, qty: int, price: real, tif: string, account: Option<string>): Order {
    NewOrder(action, "LMT", qty as real).(lmtPrice := Some(price), tif := tif, account := account)
  }

  function StopOrder(action: string, qty: int, price: real, tif: string, account: Option<string>): Order {
    NewOrder(action, "STP", qty as real).(auxPrice := Some(price), tif := tif, account := account)
  }

  /** `mark * (1 + pct)`. */
  function PctAbove(mark: real, pct: real): real {
    mark * (1.0 + pct)
  }

  /** The limit of an LMT entry: the explicit price, else mark times
      `1 + limit_from_mark_pct`, else the mark plus the slippage in bps. */
  function EntryLimit(req: EntryRequest, mark: real, round2: Rounding): (r: real)
    ensures req.limitPrice.Some? ==> r == req.limitPrice.value
    ensures req.limitPrice.None? && req.limitFromMarkPct.Some? ==>
              r == round2(PctAbove(mark, req.limitFromMarkPct.value))
    ensures req.limitPrice.None? && req.limitFromMarkPct.None? ==>
              r == round2(LimitLevel(mark, req.limitSlippageBps))
  {
    UpperBuy();
    if req.limitPrice.Some? then req.limitPrice.value
    else if req.limitFromMarkPct.Some? then round2(PctAbove(mark, req.limitFromMarkPct.value))
    else CalcLimitFromMark(mark, "BUY", req.limitSlippageBps, round2)
  }

  /** The quantity: the one given, or `max(1, budget // ref)` where `ref` is
      the limit of an LMT entry and the mark otherwise. */
  function EntryQty(req: EntryRequest, ref: real): (r: Result<int>)
    ensures req.qty.Some? ==> r == Ok(req.qty.value)
    ensures req.qty.None? && req.budget <= 0.0 ==> r == Err(MissingQtyAndBudget)
    ensures req.qty.None? && req.budget > 0.0 && ref == 0.0 ==> r == Err(DivisionByZero)
    ensures req.qty.None? && req.budget > 0.0 && ref != 0.0 ==> r == Ok(AtLeastOne(req.budget, ref))
  {
    if req.qty.Some? then Ok(req.qty.value)
    else if req.budget <= 0.0 then Err(MissingQtyAndBudget)
    else if ref == 0.0 then Err(DivisionByZero)
    else Ok(AtLeastOne(req.budget, ref))
  }

  /** A protective stop exists only for a positive `stop_loss_pct`, at the
      mark lowered by that fraction. */
  function EntryStop(req: EntryRequest, mark: real, round2: Rounding): (r: Option<real>)
    ensures r.Some? <==> req.stopLossPct.Some? && req.stopLossPct.value > 0.0
    ensures r.Some? ==> r.value == round2(LongStopLevel(mark, req.stopLossPct.value))
  {
    if req.stopLossPct.Some? && req.stopLossPct.value > 0.0 then
      Some(round2(LongStopLevel(mark, req.stopLossPct.value)))
    else None
  }

  /** The order group as built before any placement: with a child the parent
      holds transmission and the child, in the OCA group, releases both. */
  function EntryOrders(req: EntryRequest, isLimit: bool, qty: int, limit: real,
                       stop: Option<real>, ocaTag: string): (r: (Order, seq<Order>))
    ensures |r.1| == (if stop.Some? then 1 else 0)
    ensures r.0.transmit <==> stop.None?
  {
    var parent := if isLimit then LimitOrder("BUY", qty, limit, req.tif, req.account)
                  else MarketOrder("BUY", qty, req.tif, req.account);
    if stop.Some? then
      var child := StopOrder("SELL", qty, stop.value, "GTC", req.account).(parentId := 0, ocaGroup := ocaTag, transmit := true);
      (parent.(transmit := false), [child])
    else (parent.(transmit := true), [])
  }

  /** Live placement: the parent first, then each child linked to the id the
      broker gave the parent, only the last child transmitting. */
  function PlaceGroup(c: Contract, parent: Order, children: seq<Order>,
                      parentId: int, childIds: seq<int>): (r: seq<Placed>)
    requires |childIds| == |children|
    ensures |r| == 1 + |children|
    ensures r[0] == Placed(c, parent.(orderId := parentId))
    ensures forall i :: 0 <= i < |children| ==>
              r[i + 1] == Placed(c, children[i].(parentId := parentId, transmit := i == |children| - 1,
                                                 orderId := childIds[i]))
  {
    [Placed(c, parent.(orderId := parentId))]
      + seq(|children|, i requires 0 <= i < |children| =>
              Placed(c, children[i].(parentId := parentId, transmit := i == |children| - 1, orderId := childIds[i])))
  }

  /** The order group's promises: the parent buys, the child (present with a
      stop) sells at the stop in the OCA group, only the last order of the
      group transmits, and live placement sends the parent under its id and
      then the child itself, linked to the parent's id. */
  ghost predicate EntryOrdersAsPromised(p: EntryPlan, req: EntryRequest, isLimit: bool, c: Contract,
                                        ocaTag: string, parentId: int, childId: int) {
    && p.parent.action == "BUY" && p.parent.totalQuantity == p.qty as real
    && p.parent.orderType == (if isLimit then "LMT" else "MKT")
    && p.parent.lmtPrice == p.limit && p.parent.tif == req.tif && p.parent.account == req.account
    && |p.children| == (if p.stop.Some? then 1 else 0)
    && (forall ch :: ch in p.children ==>
          ch.action == "SELL" && ch.orderType == "STP" && ch.totalQuantity == p.qty as real
          && ch.auxPrice == p.stop && ch.tif == "GTC" && ch.ocaGroup == ocaTag && ch.parentId == 0)
    && (p.parent.transmit <==> |p.children| == 0)
    && (|p.children| > 0 ==> p.children[|p.children| - 1].transmit)
    && (req.dryRun ==> p.placed == [])
    && (!req.dryRun ==>
          && |p.placed| == 1 + |p.children|
          && p.placed[0] == Placed(c, p.parent.(orderId := parentId))
          && forall i :: 1 <= i < |p.placed| ==>
               p.placed[i] == Placed(c, p.children[i - 1].(parentId := parentId, transmit := i == |p.children|,
                                                          orderId := childId)))
  }

  /** The plan for a decided mark, limit, size and stop. */
  function BuildEntry(req: EntryRequest, c: Contract, mark: real, isLimit: bool, limit: real, qty: int,
                      stop: Option<real>, ocaTag: string, parentId: int, childId: int): (p: EntryPlan)
    ensures p.mark == mark && p.qty == qty && p.stop == stop
    ensures p.limit == (if isLimit then Some(limit) else None)
    ensures EntryOrdersAsPromised(p, req, isLimit, c, ocaTag, parentId, childId)
  {
    var (parent, children) := EntryOrders(req, isLimit, qty, limit, stop, ocaTag);
    var placed := if req.dryRun then [] else PlaceGroup(c, parent, children, parentId, [childId][..|children|]);
    var p := EntryPlan(mark, qty, if isLimit then Some(limit) else None, stop, parent, children, placed);
    assert !req.dryRun ==>
             forall i :: 1 <= i < |p.placed| ==>
               p.placed[i] == Placed(c, p.children[i - 1].(parentId := parentId, transmit := i == |p.children|,
                                                          orderId := childId)) by {
      if !req.dryRun {
        forall i | 1 <= i < |p.placed|
          ensures p.placed[i] == Placed(c, p.children[i - 1].(parentId := parentId, transmit := i == |p.children|,
                                                             orderId := childId))
        {
          assert p.placed[(i - 1) + 1] == p.placed[i];
        }
      }
    }
    p
  }

  /** The price a budget is divided by: the limit of a limit order, the
      mark otherwise. */
  function SizingPrice(p: EntryPlan): real {
    if p.limit.Some? then p.limit.value else p.mark
  }

  /** The promises of `place_uvix_p_plus_order` about a successful entry. */
  ghost predicate EntryAsPromised(p: EntryPlan, req: EntryRequest, c: Contract, marks: Marks,
                                  round2: Rounding, ocaTag: string, parentId: int, childId: int) {
    var isLimit := Upper(req.orderType) == "LMT";
    && MarkForEntry(marks) == Ok(p.mark)
    // limit precedence
    && (isLimit && req.limitPrice.Some? ==> p.limit == req.limitPrice)
    && (isLimit && req.limitPrice.None? && req.limitFromMarkPct.Some? ==>
          p.limit == Some(round2(PctAbove(p.mark, req.limitFromMarkPct.value))))
    && (isLimit && req.limitPrice.None? && req.limitFromMarkPct.None? ==>
          p.limit == Some(round2(LimitLevel(p.mark, req.limitSlippageBps))))
    && (!isLimit ==> Upper(req.orderType) == "MKT" && p.limit.None?)
    // size
    && (req.qty.Some? ==> p.qty == req.qty.value)
    && (req.qty.None? ==> p.qty >= 1 && req.budget > 0.0 && EntryQty(req, SizingPrice(p)) == Ok(p.qty))
    // protective stop
    && (p.stop.Some? <==> req.stopLossPct.Some? && req.stopLossPct.value > 0.0)
    && (p.stop.Some? ==> p.stop.value == round2(LongStopLevel(p.mark, req.stopLossPct.value)))
    && EntryOrdersAsPromised(p, req, isLimit, c, ocaTag, parentId, childId)
  }

  /** The price a budget is divided by before the plan exists: the limit of
      an LMT entry, the mark of an MKT one. */
  function EntryReference(req: EntryRequest, mark: real, round2: Rounding): real {
    if Upper(req.orderType) == "LMT" then EntryLimit(req, mark, round2) else mark
  }

  /** The pure part of `place_uvix_p_plus_order`, given the qualified
      contract, the filled quote fields, the OCA tag and the ids the broker
      assigns to the parent and to the protective stop. */
  function PlaceUvixPPlusOrder(req: EntryRequest, c: Contract, marks: Marks, round2: Rounding,
                               ocaTag: string, parentId: int, childId: int): (r: Result<EntryPlan>)
    ensures MarkForEntry(marks).Err? ==> r == Err(PriceUnavailable)
    ensures MarkForEntry(marks).Ok? && Upper(req.orderType) != "LMT" && Upper(req.orderType) != "MKT" ==>
              r == Err(InvalidOrderType)
    ensures MarkForEntry(marks).Ok? && (Upper(req.orderType) == "LMT" || Upper(req.orderType) == "MKT") ==>
              (r == Err(MissingQtyAndBudget) <==> req.qty.None? && req.budget <= 0.0)
    ensures MarkForEntry(marks).Ok? && (Upper(req.orderType) == "LMT" || Upper(req.orderType) == "MKT") ==>
              var ref := EntryReference(req, MarkForEntry(marks).value, round2);
              && (r == Err(DivisionByZero) <==> req.qty.None? && req.budget > 0.0 && ref == 0.0)
              && (r.Ok? <==> req.qty.Some? || (req.budget > 0.0 && ref != 0.0))
    ensures r.Err? ==> r.error in {PriceUnavailable, InvalidOrderType, MissingQtyAndBudget, DivisionByZero}
    ensures r.Ok? ==> EntryAsPromised(r.value, req, c, marks, round2, ocaTag, parentId, childId)
  {
    match MarkForEntry(marks)
    case Err(e) => Err(e)
    case Ok(mark) =>
      var kind := Upper(req.orderType);
      if kind != "LMT" && kind != "MKT" then Err(InvalidOrderType)
      else
        var isLimit := kind == "LMT";
        var limit := EntryLimit(req, mark, round2);
        match EntryQty(req, if isLimit then limit else mark)
        case Err(e) => Err(e)
        case Ok(qty) =>
          var stop := EntryStop(req, mark, round2);
          Ok(BuildEntry(req, c, mark, isLimit, limit, qty, stop, ocaTag, parentId, childId))
  }

  /** Sized from a budget at a positive reference price the budget covers,
      the entry buys as many shares as the budget pays for and no more. */
  lemma EntrySizedToBudget(req: EntryRequest, ref: real)
    requires req.qty.None? && ref > 0.0 && req.budget >= ref
    ensures EntryQty(req, ref).Ok?
    ensures EntryQty(req, ref).value as real * ref <= req.budget < (EntryQty(req, ref).value + 1) as real * ref
  {
    AtLeastOneFitsBudget(req.budget, ref);
  }

  // ---------------------------------------------------------------- put entry

  /** One chain of `reqSecDefOptParams`, with the exchange it is for. */
  datatype Chain = Chain(exchange: string, params: OptionParams)

  predicate SmartOrBlank(ch: Chain) {
    ch.exchange == "SMART" || ch.exchange == ""
  }

  /** The chain with the most expiries among the SMART (or exchange-less)
      ones, or among all when there is none; the first of equals. */
  function PreferredChain(chains: seq<Chain>): (r: Chain)
    requires |chains| > 0
    ensures r in chains
    ensures (exists ch :: ch in chains && SmartOrBlank(ch)) ==>
              SmartOrBlank(r) && forall ch :: ch in chains && SmartOrBlank(ch) ==>
                                   |ch.params.expirations| <= |r.params.expirations|
    ensures (forall ch :: ch in chains ==> !SmartOrBlank(ch)) ==>
              forall ch :: ch in chains ==> |ch.params.expirations| <= |r.params.expirations|
  {
    var candidates := Filter(chains, SmartOrBlank);
    var pool := if |candidates| > 0 then candidates else chains;
    var i := ArgMax(pool, (ch: Chain) => |ch.params.expirations|);
    assert forall ch :: ch in pool ==> |ch.params.expirations| <= |pool[i].params.expirations| by {
      forall ch | ch in pool ensures |ch.params.expirations| <= |pool[i].params.expirations| {
        var j :| 0 <= j < |pool| && pool[j] == ch;
      }
    }
    pool[i]
  }

  const Eps: real := 0.000000001

  function MinOf(xs: seq<real>): (r: real)
    requires |xs| > 0
    ensures r in xs && forall x :: x in xs ==> r <= x
  {
    var i := ArgMin(xs, (x: real) => x);
    assert forall x :: x in xs ==> xs[i] <= x by {
      forall x | x in xs ensures xs[i] <= x {
        var j :| 0 <= j < |xs| && xs[j] == x;
      }
    }
    xs[i]
  }

  function MaxOf(xs: seq<real>): (r: real)
    requires |xs| > 0
    ensures r in xs && forall x :: x in xs ==> x <= r
  {
    var i := ArgMin(xs, (x: real) => -x);
    assert forall x :: x in xs ==> x <= xs[i] by {
      forall x | x in xs ensures x <= xs[i] {
        var j :| 0 <= j < |xs| && xs[j] == x;
      }
    }
    xs[i]
  }

  /** `min(s for s in strikes if s >= bound)`, when there is one. */
  function SmallestAtLeast(strikes: seq<real>, bound: real): (r: Option<real>)
    ensures r.None? <==> forall s :: s in strikes ==> s < bound
    ensures r.Some? ==> r.value in strikes && r.value >= bound
                        && forall s :: s in strikes && s >= bound ==> r.value <= s
  {
    var ge := Filter(strikes, (s: real) => s >= bound);
    if |ge| > 0 then Some(MinOf(ge))
    else
      assert ge == [];
      None
  }

  /** `min(strikes, key=|s - x|)`: a nearest listed strike. */
  function Nearest(strikes: seq<real>, x: real): (r: real)
    requires |strikes| > 0
    ensures r in strikes && forall s :: s in strikes ==> Abs(r - x) <= Abs(s - x)
  {
    ClosestStrike(strikes, x).value
  }

  /** The put strike: an explicit one as listed, or moved up to the next
      listed strike (the nearest when none is above); otherwise, from the
      target, the first strike reaching it in "ceil" mode (the top strike
      when none does) and the nearest strike in any other mode. */
  function PutStrike(strikes: seq<real>, explicit: Option<real>, target: real, strikeRound: string): (r: real)
    requires |strikes| > 0
    ensures r in strikes
    ensures explicit.Some? && explicit.value in strikes ==> r == explicit.value
    ensures explicit.Some? && (exists s :: s in strikes && s >= explicit.value) ==>
              r >= explicit.value && forall s :: s in strikes && s >= explicit.value ==> r <= s
    ensures explicit.Some? && (forall s :: s in strikes ==> s < explicit.value) ==>
              forall s :: s in strikes ==> Abs(r - explicit.value) <= Abs(s - explicit.value)
    ensures explicit.None? && Lower(strikeRound) == "ceil" && (exists s :: s in strikes && s + Eps >= target) ==>
              r + Eps >= target && forall s :: s in strikes && s + Eps >= target ==> r <= s
    ensures explicit.None? && Lower(strikeRound) == "ceil" && (forall s :: s in strikes ==> s + Eps < target) ==>
              forall s :: s in strikes ==> s <= r
    ensures explicit.None? && Lower(strikeRound) != "ceil" ==>
              forall s :: s in strikes ==> Abs(r - target) <= Abs(s - target)
  {
    if explicit.Some? then
      var k := explicit.value;
      if k in strikes then k
      else
        match SmallestAtLeast(strikes, k)
        case Some(s) => s
        case None => Nearest(strikes, k)
    else if Lower(strikeRound) == "ceil" then
      match SmallestAtLeast(strikes, target - Eps)
      case Some(s) => s
      case None => MaxOf(strikes)
    else Nearest(strikes, target)
  }

  /** On a ladder with a strike at or above the target, "ceil" never picks a
      strike below the target by more than the tolerance, while "nearest"
      may. */
  lemma CeilNotBelowTarget(strikes: seq<real>, target: real)
    requires |strikes| > 0 && exists s :: s in strikes && s >= target
    ensures PutStrike(strikes, None, target, "ceil") >= target - Eps
  {
    assert Lower("ceil") == "ceil";
  }

  /** The ladder 10, 12, 14 with target 12.3: "ceil" gives 14, "nearest" gives 12. */
  lemma PutStrikeScenario()
    ensures PutStrike([10.0, 12.0, 14.0], None, 12.3, "ceil") == 14.0
    ensures PutStrike([10.0, 12.0, 14.0], None, 12.3, "nearest") == 12.0
  {
    var xs := [10.0, 12.0, 14.0];
    CeilPicksFirstReaching(xs, 12.3, 14.0);
    assert Lower("nearest") != "ceil" by { assert Lower("nearest")[0] == 'n'; }
    NearestPicksClosest(xs, 12.3, "nearest", 12.0);
  }

  /** Without an explicit strike, "ceil" picks the listed strike that reaches
      the target (within the tolerance) when every lower strike falls short. */
  lemma CeilPicksFirstReaching(strikes: seq<real>, target: real, s: real)
    requires s in strikes && s + Eps >= target
    requires forall x :: x in strikes && x < s ==> x + Eps < target
    ensures PutStrike(strikes, None, target, "ceil") == s
  {
    assert Lower("ceil") == "ceil";
    var c := PutStrike(strikes, None, target, "ceil");
    assert c + Eps >= target && c <= s;
  }

  /** Without an explicit strike, any mode other than "ceil" picks a strike
      strictly nearer the target than every other listed one. */
  lemma NearestPicksClosest(strikes: seq<real>, target: real, mode: string, s: real)
    requires Lower(mode) != "ceil"
    requires s in strikes && forall x :: x in strikes && x != s ==> Abs(s - target) < Abs(x - target)
    ensures PutStrike(strikes, None, target, mode) == s
  {
    var n := PutStrike(strikes, None, target, mode);
    assert Abs(n - target) <= Abs(s - target);
  }

  /** The expiry: an explicit one (when non-empty) must be listed; otherwise
      the first of the sorted `YYYYMMDD` list. */
  function PutExpiry(expirations: seq<string>, explicit: Option<string>): (r: Result<string>)
    requires |expirations| > 0
    ensures explicit.Some? && explicit.value != "" ==>
              (r.Ok? <==> explicit.value in expirations) && (r.Ok? ==> r.value == explicit.value)
    ensures r.Err? ==> r.error == ExpiryNotListed
    ensures (explicit.None? || explicit.value == "") ==>
              r.Ok? && r.value in expirations && forall e :: e in expirations ==> LexLe(r.value, e)
  {
    if explicit.Some? && explicit.value != "" then
      if explicit.value in expirations then Ok(explicit.value) else Err(ExpiryNotListed)
    else
      var m := MinString(expirations);
      assert forall e :: e in expirations ==> LexLe(m, e) by {
        forall e | e in expirations ensures LexLe(m, e) {
          var j :| 0 <= j < |expirations| && expirations[j] == e;
        }
      }
      Ok(m)
  }

  /** Bid, ask and last of an option, each kept only when finite and positive. */
  datatype OptionQuote = OptionQuote(bid: Option<real>, ask: Option<real>, last: Option<real>)

  function PosOrNone(x: Num): (r: Option<real>)
    ensures r.Some? <==> IsPos(x)
    ensures r.Some? ==> r.value == x.r && r.value > 0.0
  {
    if IsPos(x) then Some(x.r) else None
  }

  function QuoteOf(t: Ticker): OptionQuote {
    OptionQuote(PosOrNone(t.bid), PosOrNone(t.ask), PosOrNone(Or(t.last, t.marketPrice)))
  }

  /** A present price that `_is_pos` accepts. */
  predicate Usable(x: Option<real>) {
    x.Some? && x.value > 0.0
  }

  /** The option quote: the plain snapshot, replaced by the regulatory one
      (`Some` only when that snapshot is enabled) when the plain one has no
      usable field. */
  function OptionQuoteFrom(first: Ticker, regulatory: Option<Ticker>): (q: OptionQuote)
    ensures Usable(q.bid) <==> q.bid.Some?
    ensures Usable(q.ask) <==> q.ask.Some?
    ensures Usable(q.last) <==> q.last.Some?
    ensures QuoteOf(first) != OptionQuote(None, None, None) || regulatory.None? ==> q == QuoteOf(first)
    ensures QuoteOf(first) == OptionQuote(None, None, None) && regulatory.Some? ==> q == QuoteOf(regulatory.value)
  {
    var q := QuoteOf(first);
    if q.bid.None? && q.ask.None? && q.last.None? && regulatory.Some? then QuoteOf(regulatory.value)
    else q
  }

  /** The mid used for the limit: of bid and ask when both are usable, else
      of the last. */
  function Mid(q: OptionQuote, round2: Rounding): Option<real> {
    if Usable(q.bid) && Usable(q.ask) then Some(round2((q.bid.value + q.ask.value) / 2.0))
    else if Usable(q.last) then Some(round2(q.last.value))
    else None
  }

  /** The buy limit: the ask, else mid less the improvement clamped below
      at the bid, else the bid, else the last. */
  function OptionLimit(q: OptionQuote, improve: real, round2: Rounding): (r: Result<real>)
    ensures r.Err? <==> !Usable(q.bid) && !Usable(q.ask) && !Usable(q.last)
    ensures r.Err? ==> r.error == PriceUnavailable
    ensures Usable(q.ask) ==> r == Ok(q.ask.value)
    ensures !Usable(q.ask) && Usable(q.bid) ==> r.Ok? && r.value >= q.bid.value
    ensures !Usable(q.ask) && Usable(Mid(q, round2)) ==>
              var l := round2(Mid(q, round2).value - improve);
              r == Ok(if Usable(q.bid) && q.bid.value > l then q.bid.value else l)
    ensures !Usable(q.ask) && !Usable(Mid(q, round2)) && Usable(q.bid) ==> r == Ok(q.bid.value)
    ensures !Usable(q.ask) && !Usable(q.bid) && Usable(q.last) && round2(q.last.value) <= 0.0 ==>
              r == Ok(q.last.value)
  {
    var mid := Mid(q, round2);
    if Usable(q.ask) then Ok(q.ask.value)
    else if Usable(mid) then
      var l := round2(mid.value - improve);
      Ok(if Usable(q.bid) && q.bid.value > l then q.bid.value else l)
    else if Usable(q.bid) then Ok(q.bid.value)
    else if Usable(q.last) then Ok(q.last.value)
    else Err(PriceUnavailable)
  }

  /** `min(max(1, budget // (limit * 100)), max_contracts)`. */
  function PutContracts(budget: real, limit: real, maxContracts: int): (n: int)
    requires limit > 0.0
    ensures n <= maxContracts
    ensures maxContracts >= 1 ==> n >= 1
  {
    var q := AtLeastOne(budget, limit * 100.0);
    if q > maxContracts then maxContracts else q
  }

  /** Below the cap and with a budget covering one contract, the count is
      the most contracts the budget pays for. */
  lemma PutContractsFitBudget(budget: real, limit: real, maxContracts: int)
    requires limit > 0.0 && budget >= limit * 100.0
    requires AtLeastOne(budget, limit * 100.0) <= maxContracts
    ensures PutContracts(budget, limit, maxContracts) as real * (limit * 100.0) <= budget
    ensures budget < (PutContracts(budget, limit, maxContracts) + 1) as real * (limit * 100.0)
  {
    AtLeastOneFitsBudget(budget, limit * 100.0);
  }

  /** `min_premium` and `max_contracts` as the code settles them: the
      environment values are read unconditionally, so an argument the caller
      passes is overwritten and the `is None` defaults after it never apply. */
  function PutLimitsAsWritten(minPremium: Option<real>, maxContracts: Option<int>,
                              envMinPremium: real, envMaxContracts: int): (real, int) {
    (envMinPremium, envMaxContracts)
  }

  /** The evident intent: an argument the caller passes wins, and the
      environment only supplies the default. */
  function PutLimits(minPremium: Option<real>, maxContracts: Option<int>,
                     envMinPremium: real, envMaxContracts: int): (r: (real, int))
    ensures minPremium.Some? ==> r.0 == minPremium.value
    ensures maxContracts.Some? ==> r.1 == maxContracts.value
    ensures minPremium.None? ==> r.0 == PutLimitsAsWritten(minPremium, maxContracts, envMinPremium, envMaxContracts).0
    ensures maxContracts.None? ==> r.1 == PutLimitsAsWritten(minPremium, maxContracts, envMinPremium, envMaxContracts).1
  {
    (if minPremium.Some? then minPremium.value else envMinPremium,
     if maxContracts.Some? then maxContracts.value else envMaxContracts)
  }

  /** The two settle the same limits exactly when every argument passed
      equals the environment's value; so a caller's 1.00 minimum premium is
      lost against an environment value of 0.05. */
  lemma PutLimitsDiffer(minPremium: Option<real>, maxContracts: Option<int>,
                        envMinPremium: real, envMaxContracts: int)
    ensures PutLimitsAsWritten(minPremium, maxContracts, envMinPremium, envMaxContracts)
            == PutLimits(minPremium, maxContracts, envMinPremium, envMaxContracts)
            <==> (minPremium.None? || minPremium.value == envMinPremium)
                 && (maxContracts.None? || maxContracts.value == envMaxContracts)
    ensures PutLimitsAsWritten(Some(1.0), None, 0.05, 300) == (0.05, 300)
    ensures PutLimits(Some(1.0), None, 0.05, 300) == (1.0, 300)
  {
  }

  /** The arguments of `place_uvix_put_plus_order`; `minPremium` and
      `maxContracts` are settled beforehand, by `PutLimitsAsWritten` as the
      code does it or by `PutLimits` as intended. */
  datatype PutRequest = PutRequest(
    moneynessPct: real,
    budget: real,
    tif: string,
    account: Option<string>,
    priceImprove: real,
    expiry: Option<string>,
    strike: Option<real>,
    strikeRound: string,
    minPremium: real,
    maxContracts: int,
    dryRun: bool)

  datatype PutPlan = PutPlan(
    underlyingMark: real,
    expiry: string,
    strike: real,
    limit: real,
    qty: int,
    contract: Contract,
    order: Order,
    placed: seq<Placed>)

  /** Chain, strike and expiry of the put, from the underlying mark. */
  function PutChoice(req: PutRequest, mark: real, chains: seq<Chain>): (r: Result<(string, real)>)
    requires |chains| > 0
    ensures var p := PreferredChain(chains).params;
            && (r.Err? <==> |p.expirations| == 0 || (forall s :: Some(s) !in p.strikes)
                            || (req.expiry.Some? && req.expiry.value != "" && req.expiry.value !in p.expirations))
            && (r == Err(EmptyChain) <==> |p.expirations| == 0 || (forall s :: Some(s) !in p.strikes))
    ensures r.Err? ==> r.error in {EmptyChain, ExpiryNotListed}
    ensures r.Ok? ==> var p := PreferredChain(chains).params;
                      && r.value.0 in p.expirations
                      && Some(r.value.1) in p.strikes
                      && r.value.1 == PutStrike(Sort(PresentStrikes(p.strikes)), req.strike,
                                                PctAbove(mark, req.moneynessPct), req.strikeRound)
                      && PutExpiry(p.expirations, req.expiry) == Ok(r.value.0)
  {
    var p := PreferredChain(chains).params;
    var strikes := Sort(PresentStrikes(p.strikes));
    LadderStrikes(p.strikes);
    if |p.expirations| == 0 || |strikes| == 0 then Err(EmptyChain)
    else
      var strike := PutStrike(strikes, req.strike, PctAbove(mark, req.moneynessPct), req.strikeRound);
      match PutExpiry(p.expirations, req.expiry)
      case Err(e) => Err(e)
      case Ok(expiry) => Ok((expiry, strike))
  }

  /** The promises about a priced put order: the limit by precedence,
      at least the minimum premium, the size capped, a transmitting LMT BUY
      on the put, placed only when live. */
  ghost predicate PutAsPromised(p: PutPlan, req: PutRequest, symbol: string, q: OptionQuote,
                                round2: Rounding, brokerId: int) {
    && OptionLimit(q, req.priceImprove, round2) == Ok(p.limit)
    && p.limit > 0.0 && p.limit >= req.minPremium
    && p.qty == PutContracts(req.budget, p.limit, req.maxContracts)
    && p.qty <= req.maxContracts && (req.maxContracts >= 1 ==> p.qty >= 1)
    && p.contract == OptionContract(symbol, p.expiry, p.strike, "P", "SMART", "", "USD", symbol)
    && p.order == LimitOrder("BUY", p.qty, p.limit, req.tif, req.account)
    && p.order.transmit
    && (req.dryRun ==> p.placed == [])
    && (!req.dryRun ==> p.placed == [Placed(p.contract, p.order.(orderId := brokerId))])
  }

  /** The put is priced: a limit exists, is positive and reaches the
      minimum premium. */
  predicate PutPriced(req: PutRequest, q: OptionQuote, round2: Rounding) {
    var l := OptionLimit(q, req.priceImprove, round2);
    l.Ok? && l.value > 0.0 && l.value >= req.minPremium
  }

  /** Pricing and sizing of the chosen put, and the order. */
  function PutOrder(req: PutRequest, symbol: string, mark: real, expiry: string, strike: real,
                    q: OptionQuote, round2: Rounding, brokerId: int): (r: Result<PutPlan>)
    ensures OptionLimit(q, req.priceImprove, round2).Err? ==> r == Err(PriceUnavailable)
    ensures r.Ok? <==> PutPriced(req, q, round2)
    ensures r.Err? ==> r.error == PriceUnavailable || r.error == BelowMinPremium
    ensures r.Ok? ==> r.value.underlyingMark == mark && r.value.expiry == expiry && r.value.strike == strike
    ensures r.Ok? ==> PutAsPromised(r.value, req, symbol, q, round2, brokerId)
  {
    match OptionLimit(q, req.priceImprove, round2)
    case Err(e) => Err(e)
    case Ok(limit) =>
      if !(limit > 0.0) || limit < req.minPremium then Err(BelowMinPremium)
      else
        var qty := PutContracts(req.budget, limit, req.maxContracts);
        var opt := OptionContract(symbol, expiry, strike, "P", "SMART", "", "USD", symbol);
        var order := LimitOrder("BUY", qty, limit, req.tif, req.account).(transmit := true);
        var placed := if req.dryRun then [] else [Placed(opt, order.(orderId := brokerId))];
        Ok(PutPlan(mark, expiry, strike, limit, qty, opt, order, placed))
  }

  /** The pure part of `place_uvix_put_plus_order`, given the underlying's
      symbol and filled quote fields, the option chains, whether the put
      qualified, its plain and regulatory snapshots, and the order id the
      broker assigns. */
  function PlaceUvixPutPlusOrder(req: PutRequest, symbol: string, marks: Marks, chains: seq<Chain>,
                                 qualified: bool, first: Ticker, regulatory: Option<Ticker>,
                                 round2: Rounding, brokerId: int): (r: Result<PutPlan>)
    ensures MarkForEntry(marks).Err? ==> r == Err(PriceUnavailable)
    ensures MarkForEntry(marks).Ok? && |chains| == 0 ==> r == Err(NoOptionParams)
    ensures MarkForEntry(marks).Ok? && |chains| > 0 && PutChoice(req, MarkForEntry(marks).value, chains).Err? ==>
              r == Err(PutChoice(req, MarkForEntry(marks).value, chains).error)
    ensures && MarkForEntry(marks).Ok? && |chains| > 0
            && PutChoice(req, MarkForEntry(marks).value, chains).Ok? && !qualified
            ==> r == Err(QualificationFailed)
    ensures r.Ok? <==> && MarkForEntry(marks).Ok? && |chains| > 0
                       && PutChoice(req, MarkForEntry(marks).value, chains).Ok? && qualified
                       && PutPriced(req, OptionQuoteFrom(first, regulatory), round2)
    ensures r.Ok? ==> qualified && |chains| > 0
    ensures r.Ok? ==> MarkForEntry(marks) == Ok(r.value.underlyingMark)
    ensures r.Ok? ==> PutChoice(req, r.value.underlyingMark, chains) == Ok((r.value.expiry, r.value.strike))
    ensures r.Ok? ==> PutAsPromised(r.value, req, symbol, OptionQuoteFrom(first, regulatory), round2, brokerId)
  {
    match MarkForEntry(marks)
    case Err(e) => Err(e)
    case Ok(mark) =>
      if |chains| == 0 then Err(NoOptionParams)
      else
        match PutChoice(req, mark, chains)
        case Err(e) => Err(e)
        case Ok(choice) =>
          if !qualified then Err(QualificationFailed)
          else PutOrder(req, symbol, mark, choice.0, choice.1, OptionQuoteFrom(first, regulatory), round2, brokerId)
  }
}
